=== FILE: README.md ===
# localume indexing core in Dafny

localume indexes a user's local documents for semantic search. A file
scanner walks directories. For each `.pdf`, `.txt` or `.md` entry it
extracts text, embeds it with a sentence encoder, derives an id from the
path, and adds the vector and a small metadata record to a vector store:
a FAISS `IndexIDMap` over an exact L2 index, plus a pickled id map. A
filesystem monitor debounces modification events and submits
reprocessing tasks. The search engine embeds a query and asks the store
for its nearest neighbours.

This project models that core as pure Dafny functions over immutable
data:

- `Faiss` (faiss_index.dfy) is the flat index the store wraps. Entries are
  kept in insertion order. A k-nearest query is the first k positions of a
  distance ranking, padded with label -1.
- `VectorStore` (vector_store.dfy) is the store. It covers construction
  and loading, add, remove, search and saving the id map. Both files on
  disk are part of the state.
- `FileMetadataModel` (file_metadata.dfy) covers `FileMetadata` with
  `to_dict`, `asdict` and `from_dict`.
- `PdfExtractor` and `TextFileExtractor` (pdf_extractor.dfy,
  text_file_extractor.dfy) cover the pure parts of the two extractors.
- `Embeddings` (embedding_generator.dfy) covers the blank-text check of
  `embed_text`. The encoder itself is a parameter.
- `FileScanner` (file_scanner.dfy) covers the scan of a directory and the
  merge of several scans. `Concat` (concat.dfy) is the list concatenation
  both are built on.
- `Monitor` (monitor.dfy) is the event handler as a state machine.
- `SearchEngine` (search_engine.dfy) is the search engine.
- `Wrappers` and `PyStr` are shared helpers: results and Python's
  exception classes, and the Python string and path functions the code
  uses (`strip`, `splitext`, `basename`, `Path.suffix`, slicing).

Whatever the code cannot see is a parameter:

- the filesystem: a file's existence, `stat`, listing and contents;
- MIME guessing;
- the sentence encoder;
- SHA-256;
- the clock;
- whether a write succeeds.

Behaviour of the code worth knowing:

- Re-adding an id that is already stored does not remove the old vector.
  The index then holds the id twice, while the id map keeps one entry
  (`VectorStore.AddExistingIdDuplicates`).
- When only one of the two store files exists, a fresh store is created
  and both files are rewritten. The code does not treat this as
  corruption.
- The index file is written only when a fresh store is created. After
  any add, restarting loads an index that lacks the vector while the id
  map has it (`VectorStore.ReloadAfterAdd`).
- Every failure in the store's `search`, including a dimension mismatch,
  is a RuntimeError. Nothing returns an empty list in its place. Ties in
  distance are left in whatever order the ranking gives them.
- The store's `last_modified` and `created_at` are two clock readings
  taken during the add. The scanner's file modification time is not
  used.
- Delete and move events do nothing but log.
- A scan root that cannot be resolved leaves `root` unbound in the
  handler, so an UnboundLocalError escapes `scan_directory`.
  `scan_directories_parallel` catches it.

## Model

| member | source | states |
|---|---|---|
| PyStr.Strip | core/utils/text_file_extractor.py:103 | `str.strip()` leaves a result no longer than its input that neither starts nor ends with whitespace |
| PyStr.SplitExt | core/scanner/file_scanner.py:101 | `os.path.splitext` splits the path into a root and an extension that is empty or a dot followed by no dot or separator |
| PyStr.NatToString | core/utils/pdf_extractor.py:98 | the page number in a header is written as one or more decimal digits |
| PyStr.NatToStringValue | core/utils/pdf_extractor.py:98 | those digits denote the page number, as Python's `str` writes it: no leading zero, and "0" only for zero |
| PyStr.NatToStringInjective | core/utils/pdf_extractor.py:98 | different page numbers are written differently |
| PyStr.PathSuffix | core/utils/text_file_extractor.py:66 | `Path.suffix` is empty or a dot and at least one more character, with no dot or separator after the first, at the end of the final component |
| Faiss.Add | core/embeddings/vector_store.py:123-124 | `add_with_ids` appends the entry after all existing ones, whatever its id; the index's id set gains the id |
| Faiss.RemoveIds | core/embeddings/vector_store.py:191-192 | `remove_ids` drops exactly the entries carrying the id and keeps all others in their order (the order is pinned down by `Faiss.WithoutAppend` and `Faiss.WithoutOne`); the id leaves the id set |
| Faiss.WithoutAppend | core/embeddings/vector_store.py:191-192 | removing an id from a concatenation removes it from each part, so the survivors keep their relative order |
| Faiss.WithoutOne | core/embeddings/vector_store.py:191-192 | a single entry survives removal iff it carries another id |
| Faiss.WithoutCount | core/embeddings/vector_store.py:191-192 | removal deletes exactly as many entries as carried the id, and none carrying it remain |
| Faiss.UniqueIdsCount | core/embeddings/vector_store.py:123-124 | with one entry per id, the number of distinct ids is the number of entries |
| Faiss.SortPositions | core/embeddings/vector_store.py:158 | the ranking is a permutation of the positions it is given, sorted by distance to the query |
| Faiss.InsertSorted | core/embeddings/vector_store.py:158 | inserting a position into a distance-sorted ranking keeps it sorted |
| Faiss.Ranking | core/embeddings/vector_store.py:158 | the ranking of the index lists every entry position once, in non-decreasing distance |
| Faiss.Knn | core/embeddings/vector_store.py:158 | a k-nearest answer has exactly k rows; each row below the entry count names a stored id, and rows beyond it are label -1 |
| Faiss.KnnIsAnswer | core/embeddings/vector_store.py:158 | the answer is the first k rows of some distance ranking of all entries |
| Faiss.NearestFirst | core/embeddings/vector_store.py:158 | the first row of an answer is a stored entry no farther from the query than any other entry |
| Faiss.AnswerAscending | core/embeddings/vector_store.py:158 | the rows of an answer that name entries come in non-decreasing distance |
| Faiss.AnswerRowIsEntry | core/embeddings/vector_store.py:158 | each row of an answer below the entry count is the row of some stored entry |
| Faiss.AnswerIncludesNearer | core/embeddings/vector_store.py:158 | an answer leaves out no entry strictly nearer than its last real row, and none at all when k reaches the entry count |
| VectorStore.New | core/embeddings/vector_store.py:67-100 | dimension below 1 gives ValueError; when both files exist they are loaded (RuntimeError if either is damaged); otherwise an empty store is created and both files written, or RuntimeError if writing fails |
| VectorStore.SaveIdMap | core/embeddings/vector_store.py:198-209 | saving writes the current id map to its file, or raises RuntimeError and leaves everything as it was |
| VectorStore.AddEmbedding | core/embeddings/vector_store.py:102-136 | a wrong-length vector or an id outside int64 raises RuntimeError with the store untouched; otherwise the entry is appended, the id-map entry (over)written with the file path and name and the two clock readings, the id map saved; it returns normally iff the add is accepted and the save succeeds |
| VectorStore.NewMetadata | core/embeddings/vector_store.py:126-130 | the id-map entry takes file path and file name from the metadata dictionary, empty when absent, and its two timestamps from the two clock readings |
| VectorStore.RemoveEmbedding | core/embeddings/vector_store.py:180-196 | removal takes the id out of both the index and the id map and keeps every other entry, in order; an absent id is no error; only an id outside int64 or a failed save raises RuntimeError |
| VectorStore.Collect | core/embeddings/vector_store.py:160-175 | result rows keep FAISS's order, drop label -1 and ids missing from the id map, and carry the id's metadata dictionary |
| VectorStore.CollectOne | core/embeddings/vector_store.py:161-174 | a single answer row survives iff its id is not -1 and is in the id map, and then carries that id's metadata |
| VectorStore.CollectAppend | core/embeddings/vector_store.py:161-174 | the filter works row by row: collecting two runs of rows is collecting each run in turn |
| VectorStore.MetadataDict | core/embeddings/vector_store.py:164-169 | a result's metadata dictionary has exactly the keys file_path, filename, created_at and last_modified, each holding the id-map entry's field of that name |
| VectorStore.CollectAllKept | core/embeddings/vector_store.py:161-174 | rows that all name mapped ids become one result each, in order |
| VectorStore.CollectSplit | core/embeddings/vector_store.py:161-174 | m kept rows followed by padding become exactly m results, in order |
| VectorStore.Search | core/embeddings/vector_store.py:138-178 | search fails with RuntimeError iff the query length differs from the store's (or the index's) dimension or `top_k` is below 1; otherwise the results are some exact k-nearest answer with label -1 and unmapped ids filtered out, at most `top_k` of them, each for an id in the id map with its metadata |
| VectorStore.SearchRows | core/embeddings/vector_store.py:158-175 | on a consistent store without label -1 among its ids, the results are the real rows of the k-nearest answer, min(top_k, entries) of them, one each, in order |
| VectorStore.SearchIsTopK | core/embeddings/vector_store.py:138-178 | on such a store `search` returns the top_k most similar embeddings: min(top_k, entries) results, nearest first, each naming an entry at its distance, and no entry strictly nearer than the last result missing |
| VectorStore.RowsOfAnswer | core/embeddings/vector_store.py:158-175 | results copying the real rows of a k-nearest answer one for one are the top_k most similar embeddings |
| VectorStore.WellFormedCount | core/embeddings/vector_store.py:70-74 | when index ids and id-map keys agree with one entry per id, the index and the id map are the same size |
| VectorStore.AddPreservesConsistency | core/embeddings/vector_store.py:102-136 | every outcome of an add (accepted, rejected, failed save) keeps the index ids equal to the id-map keys |
| VectorStore.RemovePreservesConsistency | core/embeddings/vector_store.py:180-196 | every outcome of a remove keeps the index ids equal to the id-map keys |
| VectorStore.AddFreshPreservesWellFormed | core/embeddings/vector_store.py:102-136 | adding an id the store does not hold keeps one entry per id in both structures |
| VectorStore.RemovePreservesWellFormed | core/embeddings/vector_store.py:180-196 | remove keeps one entry per id in both structures |
| VectorStore.AddExistingIdOverwrites | core/embeddings/vector_store.py:132 | re-adding a stored id overwrites its id-map entry; the id map does not grow |
| VectorStore.AddExistingIdDuplicates | core/embeddings/vector_store.py:123-124 | re-adding a stored id leaves two index entries with that id, so one-entry-per-id breaks |
| VectorStore.CountAtMostOne | core/embeddings/vector_store.py:123-124 | with unique ids no id is carried by two entries |
| VectorStore.RemoveAbsentIsNoop | core/embeddings/vector_store.py:190-194 | removing an id that is not stored changes nothing in memory and still saves the id map |
| VectorStore.RemovePresentCount | core/embeddings/vector_store.py:190-194 | removing a stored id shrinks both the index and the id map by exactly one |
| VectorStore.RemoveThenSearch | core/embeddings/vector_store.py:180-196 | after removing an id, no search result names it |
| VectorStore.SearchAfterAdd | core/embeddings/vector_store.py:102-178 | searching for a vector just added returns it first, at distance 0, with the metadata just written: the file path and name given to the add ("" when absent) and the add's two clock readings |
| VectorStore.ReloadAfterAdd | core/embeddings/vector_store.py:78-100 | create, add, restart: the reloaded index lacks the vector while the reloaded id map has it |
| VectorStore.NearerOfTwo | core/embeddings/vector_store.py:138-178 | with two stored vectors, a top-1 search returns the one strictly nearer the query, with its distance and metadata |
| VectorStore.TwoVectorScenario | core/embeddings/vector_store.py:138-178 | vectors [10,0,0,0] (id 1) and [0,10,0,0] (id 2), query [9,1,0,0]: top-1 is id 1 at squared distance 2 |
| Embeddings.EmbedText | core/embeddings/embedding_generator.py:28-53 | embedding fails with ValueError iff the text is empty or all whitespace; otherwise it is the encoder's vector for the unstripped text |
| FileMetadataModel.ToDict | core/models/file_metadata.py:28-37 | `to_dict` has exactly the six keys and omits `page_count` |
| FileMetadataModel.AsDict | core/models/file_metadata.py:19-25 | `asdict` has all seven field names and agrees with `to_dict` on the six shared keys |
| FileMetadataModel.FromDict | core/models/file_metadata.py:39-42 | `from_dict` succeeds iff the four required fields are present and no unknown key is; then it copies the given fields and defaults the timestamps to now and `page_count` to None; otherwise TypeError |
| FileMetadataModel.FromDictToDict | core/models/file_metadata.py:28-42 | `from_dict(to_dict(m))` is m with `page_count` reset to None, so the round trip is exact iff `page_count` is None |
| FileMetadataModel.ToDictFromDict | core/models/file_metadata.py:28-42 | a dictionary with exactly the six `to_dict` keys survives `from_dict` then `to_dict` unchanged |
| FileMetadataModel.FromDictAsDict | core/models/file_metadata.py:19-42 | `from_dict(asdict(m))` gives back m |
| PdfExtractor.CreationDate | core/utils/pdf_extractor.py:60-61 | the creation date is the document's `/CreationDate`, or "Unknown" when there is no document info or no such entry |
| PdfExtractor.ExtractMetadata | core/utils/pdf_extractor.py:49-68 | the PDF metadata has exactly four keys: base name, path, page count of the whole document, creation date |
| PdfExtractor.PageTexts | core/utils/pdf_extractor.py:95-96 | page texts are extracted iff every selected page extracts, one text per page, in order |
| PdfExtractor.BlocksLeadWithHeader | core/utils/pdf_extractor.py:95-98 | when the first page has text, the joined pages open with exactly that page's "--- Page n ---" header line |
| PdfExtractor.SelectPages | core/utils/pdf_extractor.py:93 | the selected pages are a prefix of the document: all of it for None; for n >= 0 the first min(n, pages) pages; for n < 0 all but the last -n, or none |
| PdfExtractor.ExtractContent | core/utils/pdf_extractor.py:85-106 | a missing file gives FileNotFoundError before anything else; every failure of a present file, whether of the reader or of a page, is RuntimeError; an opened file succeeds iff every selected page extracts, and then carries the metadata of the whole document and the stripped page blocks numbered from 1 |
| PdfExtractor.AssemblePages | core/utils/pdf_extractor.py:92-98 | the loop builds the page blocks joined in order, each non-empty page under its 1-based "--- Page n ---" header |
| PdfExtractor.BlocksAppend | core/utils/pdf_extractor.py:95-98 | numbering continues across runs of pages: the blocks of a + b are those of a followed by those of b numbered on from where a ends |
| PdfExtractor.BlocksEmptyIff | core/utils/pdf_extractor.py:97-98 | the joined text is empty iff every page text is empty |
| PdfExtractor.BlocksNotBlank | core/utils/pdf_extractor.py:97-98 | one non-empty page makes the joined text non-blank, because its header is |
| PdfExtractor.ExtractedTextEmptyIff | core/utils/pdf_extractor.py:97-102 | the stripped result is empty iff every page text is empty |
| PdfExtractor.OnlySelectedPagesMatter | core/utils/pdf_extractor.py:93-103 | with `n_pages = n`, two documents that agree on their first n pages and on their info give the same result |
| PdfExtractor.AccessorDefaults | core/utils/pdf_extractor.py:24-42 | when the metadata lacks the keys, the four accessors return "Unknown", "Unknown", 0 and "Unknown" |
| PdfExtractor.ExtractedAccessors | core/utils/pdf_extractor.py:24-42 | on an extracted result the four accessors return the base name, path, page count and creation date rather than their defaults |
| TextFileExtractor.LStripDots | core/utils/text_file_extractor.py:66 | `lstrip('.')` removes exactly the leading dots |
| TextFileExtractor.FileType | core/utils/text_file_extractor.py:66 | the file type is the path's suffix without its dot, and empty when there is no suffix |
| TextFileExtractor.TxtFileType | core/utils/text_file_extractor.py:60-66 | a file named stem.txt has file type "txt" |
| TextFileExtractor.HiddenFileType | core/utils/text_file_extractor.py:60-66 | a file named just ".txt" has no suffix and so an empty file type |
| TextFileExtractor.PathNameOfJoin | core/utils/text_file_extractor.py:64 | the name of dir/name is name |
| TextFileExtractor.ExtractMetadata | core/utils/text_file_extractor.py:57-71 | the metadata records path, name, file type, size, both `stat` times, and no page count |
| TextFileExtractor.ContentDict | core/utils/text_file_extractor.py:21-26 | the result dictionary has the keys "metadata" (a dictionary of all seven metadata fields) and "extracted_text" (the text) |
| TextFileExtractor.ExtractContent | core/utils/text_file_extractor.py:89-114 | a missing file gives FileNotFoundError, a failing size query OSError, a too-large file ValueError, a read failure of a present, small enough file RuntimeError; success iff none of these, with keys "metadata" and "extracted_text" |
| TextFileExtractor.DefaultLimit | core/utils/text_file_extractor.py:93-95 | with the default limit of 50 a file is refused iff it has more than 52428800 bytes |
| TextFileExtractor.FalsyLimitDisables | core/utils/text_file_extractor.py:94 | a limit of None or 0 refuses nothing |
| TextFileExtractor.ExtractedMetadata | core/utils/text_file_extractor.py:21-26 | the "metadata" entry is a dictionary that `from_dict` turns back into exactly the extracted metadata |
| TextFileExtractor.ExtractedText | core/utils/text_file_extractor.py:102-111 | the "extracted_text" entry is the stripped file content |
| TextFileExtractor.ExtractTextData | core/utils/text_file_extractor.py:135-152 | the module-level helper passes its optional limit on: a missing file is FileNotFoundError; it succeeds exactly when the file is present, its size is known, within the limit and readable, and then holds the stripped content; with the default limit of None it never raises ValueError and succeeds whenever the file is present and readable |
| TextFileExtractor.TextDataAgreesWithinDefault | core/utils/text_file_extractor.py:135-152 | the helper without a limit and the extractor with its 50 MB default give the same result on a file of at most 50 MB; above that the extractor raises ValueError while the helper still reads the file |
| FileScanner.GenerateUniqueId | core/scanner/file_scanner.py:170-174 | ids lie in [0, 10^8) and so fit the store's int64 ids |
| FileScanner.SupportedIff | core/scanner/file_scanner.py:100-103 | an entry is considered iff its path ends in ".pdf", ".txt" or ".md" (case-sensitive) with a non-dot character before it in the final component |
| FileScanner.ExtractContent | core/scanner/file_scanner.py:33-52 | a path guessed to be a PDF gives the PDF extractor's text of its first page, or "" when extraction fails; any other path the text extractor accepts gives its stripped content, or "" when extraction fails; every other path gives ""; the result is always stripped |
| FileScanner.ExtractedContentEmbeds | core/scanner/file_scanner.py:106-109 | non-empty extracted content always embeds, so the embedder's blank-text error never arises in a scan |
| FileScanner.EntryMetadata | core/scanner/file_scanner.py:111-115 | the metadata handed to the store has exactly the keys `file_path`, `filename` and `last_modified`, holding the path, its base name and the entry's modification time |
| FileScanner.StoredMetadataOfEntry | core/scanner/file_scanner.py:111-118 | a search reports an added entry's path and base name, but the store's own clock readings rather than the file's modification time |
| FileScanner.IndexFile | core/scanner/file_scanner.py:103-125 | empty content leaves the store alone; a record is returned exactly when the per-entry filter says, and then the store's index has gained exactly its vector under its id, the id map the entry for it, and the id map is saved; whatever happens, the store only grows and stays consistent |
| FileScanner.IndexContent | core/scanner/file_scanner.py:108-125 | once the content is known: empty content changes nothing; otherwise a record exists exactly when the content embeds, `stat` works, the store takes a vector of its dimension and saves, and then the index gains exactly that vector under the derived id and the id map its metadata; the store only grows and stays consistent |
| FileScanner.ScanEntry | core/scanner/file_scanner.py:96-134 | one entry contributes its own record or nothing, and the store afterwards holds that record's vector and id; an entry without a supported extension is passed over untouched, and a file or an entry whose indexing raised is not descended into; a supported directory is scanned in turn, so the store afterwards holds every record its own listing yields, though none of them is returned; the store only grows |
| FileScanner.ScanEntries | core/scanner/file_scanner.py:94-134 | the scan loop returns the per-entry records in listing order, the store afterwards holds every returned record's vector and id, only grows and stays consistent, and an entry's exception does not stop the loop |
| FileScanner.ScanListing | core/scanner/file_scanner.py:94-136 | an unlistable directory contributes nothing; a listed one contributes its entries' records, each held by the store afterwards |
| FileScanner.ScanDirectory | core/scanner/file_scanner.py:75-139 | an unresolvable root raises UnboundLocalError; a missing or unlistable root returns [] with the store untouched; otherwise the records of the root's direct children, each held by the store afterwards, which only grows |
| FileScanner.RecordsComeFromChildren | core/scanner/file_scanner.py:94-129 | every returned record was produced by a direct child: supported, with non-empty content, its embedding, its path-derived id, its path, base name and modification time; nothing comes from nested directories |
| FileScanner.EntryRecordsProduced | core/scanner/file_scanner.py:103-125 | one entry yields at most one record, and that record is produced by the entry |
| FileScanner.FailingEntryIsolated | core/scanner/file_scanner.py:96-134 | an entry that yields nothing leaves the records of the entries before and after it unchanged |
| FileScanner.EntryIndexedIff | core/scanner/file_scanner.py:103-125 | with a store of the encoder's dimension whose saves succeed, an entry yields a record iff it is supported, has non-empty content and a working `stat` |
| FileScanner.ScanDirectoriesParallel | core/scanner/file_scanner.py:54-73 | the merged list is the completed scans' lists appended in completion order; a scan that raised contributes nothing; the store afterwards holds every merged record, only grows and stays consistent |
| FileScanner.ParallelIsConcatenation | core/scanner/file_scanner.py:54-73 | for any completion order that is a permutation of the roots, the merged list has the same elements, as often, as the roots' lists concatenated in the given order |
| FileScanner.ExtractContentAsWritten | core/scanner/file_scanner.py:33-52 | as written, the function returns a PDF result object iff the path is guessed to be a PDF and the PDF extractor succeeds; otherwise the empty string |
| FileScanner.CorrectedExtractsAsWrittenText | core/scanner/file_scanner.py:33-52 | the corrected extraction returns the text of exactly the PDF result object the code as written returns, and nothing for a PDF where the code as written gets nothing |
| FileScanner.IndexFileAsWritten | core/scanner/file_scanner.py:103-118 | as written, processing an entry never changes the store |
| FileScanner.AsWrittenIndexesNothing | core/scanner/file_scanner.py:33-52 | as written, no entry ever yields a record |
| FileScanner.TextFileIndexedOnlyWhenCorrected | core/scanner/file_scanner.py:44-45 | a readable non-blank text file contributes nothing as written, but one record once extraction returns the text |
| Concat.ConcatMapAppend | core/scanner/file_scanner.py:65-69 | appending per-item lists distributes over concatenating the items |
| Concat.ConcatMapMember | core/scanner/file_scanner.py:95-125 | every element of the concatenation comes from one item's list |
| Concat.ConcatMapSkip | core/scanner/file_scanner.py:131-134 | an item whose list is empty can be dropped without changing the result |
| Concat.ConcatMapReorder | core/scanner/file_scanner.py:65-69 | concatenating in two orders of the same items gives lists with the same elements, as often |
| Monitor.ShouldIgnore | core/scanner/monitor.py:104-119 | an event is ignored iff its path ends with "desktop.ini", contains "Thumbs.db" or ends with ".tmp" |
| Monitor.OnCreated | core/scanner/monitor.py:84-87 | a create submits one "created" task iff it is not for a directory; it bypasses the ignore filter and leaves the debounce map alone |
| Monitor.OnModified | core/scanner/monitor.py:89-102 | an ignored or too-early modify changes nothing; a passing one records its time for the path (directories too) and submits a "modified" task iff it is for a file |
| Monitor.Dispatch | core/scanner/monitor.py:84-125 | delete and move events submit nothing and change nothing; no event forgets a path or submits more than one task |
| Monitor.Run | core/scanner/monitor.py:84-125 | over a run of events, each task is for a file event of kind created or modified with that path, and there are no more tasks than events |
| Monitor.PassesIff | core/scanner/monitor.py:94-101 | a file's modify event submits a task iff more than 1 second has passed since the path's last recorded time (0 when none) |
| Monitor.OtherPathsUnchanged | core/scanner/monitor.py:98-102 | an event never changes the debounce entry of any other path |
| Monitor.CreatedTmpFileSubmitted | core/scanner/monitor.py:84-87 | creating a ".tmp" file still submits its task |
| Monitor.DebouncePair | core/scanner/monitor.py:94-102 | two modifies of one file at most 1 second apart submit at most one task between them, and exactly one when the first passes |
| Monitor.BurstAfterPass | core/scanner/monitor.py:94-102 | after a pass, further modifies within the window are suppressed and change nothing |
| Monitor.BurstAtMostOne | core/scanner/monitor.py:94-102 | any number of modifies of one file within one 1-second window submit at most one task |
| SearchEngine.Search | core/search/search_engine.py:27-54 | the engine succeeds iff the query is not blank, the embedding has the store's dimension and `top_k` is at least 1; the result is then exactly the store's search; every failure is RuntimeError |
| SearchEngine.BlankQueryFails | core/search/search_engine.py:41-54 | a blank query is reported as RuntimeError, not the embedder's ValueError |
| SearchEngine.MismatchedEncoderAlwaysFails | core/search/search_engine.py:41-54 | an encoder whose dimension differs from the store's makes every search fail |
| SearchEngine.DefaultSearchResults | core/search/search_engine.py:27 | with the default `top_k` of 5, at most five results, each for a known id with its metadata |

## Findings

| source | as written | input that shows it | evidently intended | confidence | as-written member | corrected member |
|---|---|---|---|---|---|---|
| core/scanner/file_scanner.py:41-48 | `_extract_content` returns the PDF extractor's result object, not its text, and for other files calls `is_supported_file_type`, which the text extractor does not define | any directory holding a readable `notes.txt`: the AttributeError is caught, the content is "", and the entry yields no record; a readable PDF's result object reaches `embed_text`, whose `.strip()` raises, so it yields none either | return the extracted text of supported PDF and text files | high (not executed) | FileScanner.AsWrittenIndexesNothing | FileScanner.TextFileIndexedOnlyWhenCorrected |

The rest of the model uses the corrected `FileScanner.ExtractContent`. It
returns the PDF extractor's text for the first page, or the text
extractor's text under its default size limit. Which non-PDF files the
text extractor accepts is the parameter `textSupported`.

## Left out

- Floating point: vectors are integer sequences and distances are
  squared L2 on integers, standing in for float32 L2. Padding rows carry
  the largest float32 as an integer.
- The encoder's zero-vector fallback when encoding raises is left out,
  because it depends on the model's reported dimension. The encoder is a
  total parameter.
- Concurrency: `scan_directories_parallel`'s thread pool is modelled as
  the scans running one after another in a given completion order. The
  monitor's thread pool is modelled as the list of submitted tasks.
- `process_event` is left out. It calls a `get_file_metadata` the scanner
  does not define. Only the submitted task is modelled.
- The watchdog observer, the `start` loop and the directory checks made
  when monitoring starts are left out, because they are I/O.
- `write_scan_results`, the loggers, `_count_lines`, the GUI and the LLM
  service are left out, because they do no indexing.
- A failed pickle write may leave a truncated id-map file. The model
  leaves the file as it was.
- Paths are POSIX strings. `Path.resolve`, symbolic links and
  normalisation are left out: a root says whether it resolves and
  exists, and a nested directory is scanned through its own listing.
- Timestamps are the ISO strings the clock or `stat` gives. SHA-256 is
  a parameter returning a natural number.
- `FileScanner.ExtractContent`: which non-PDF files the text extractor
  accepts is a parameter, because the method the source calls does not
  exist.
- The clock readings and the outcome of saving the id map are given
  per path in a scan, so a path scanned twice (overlapping roots) gets
  the same readings and the same save outcome both times.
- `FileScanner.ScanDirectoriesParallel`: the returned list is stated
  for a given completion order. Its relation to the roots' order is a
  multiset equality (`FileScanner.ParallelIsConcatenation`).

=== FILE: concat.dfy ===
/** Concatenating what a function yields for each element of a list: the
    shape both of a directory scan's result (one short list per entry) and of
    the merge of several scans (one list per root). */
module Concat {

  /** `f(xs[0]) + f(xs[1]) + ...`, in the order of `xs`. */
  function ConcatMap<A, B>(f: A -> seq<B>, xs: seq<A>): (r: seq<B>)
  {
    if |xs| == 0 then [] else f(xs[0]) + ConcatMap(f, xs[1..])
  }

  lemma {:induction false} ConcatMapAppend<A, B>(f: A -> seq<B>, xs: seq<A>, ys: seq<A>)
    ensures ConcatMap(f, xs + ys) == ConcatMap(f, xs) + ConcatMap(f, ys)
  {
    if |xs| == 0 {
      assert xs + ys == ys;
    } else {
      assert (xs + ys)[1..] == xs[1..] + ys;
      ConcatMapAppend(f, xs[1..], ys);
    }
  }

  lemma ConcatMapOne<A, B>(f: A -> seq<B>, x: A)
    ensures ConcatMap(f, [x]) == f(x)
  {
    assert [x][1..] == [];
  }

  /** An element that yields nothing can be dropped without changing what
      the elements around it yield. */
  lemma ConcatMapSkip<A, B>(f: A -> seq<B>, xs: seq<A>, x: A, ys: seq<A>)
    requires f(x) == []
    ensures ConcatMap(f, xs + [x] + ys) == ConcatMap(f, xs) + ConcatMap(f, ys)
  {
    ConcatMapAppend(f, xs + [x], ys);
    ConcatMapAppend(f, xs, [x]);
    ConcatMapOne(f, x);
  }

  /** Every element of the result comes from what some element yields. */
  lemma {:induction false} ConcatMapMember<A, B>(f: A -> seq<B>, xs: seq<A>, j: nat)
    requires j < |ConcatMap(f, xs)|
    ensures exists i, k | 0 <= i < |xs| && 0 <= k < |f(xs[i])| :: ConcatMap(f, xs)[j] == f(xs[i])[k]
  {
    var head := f(xs[0]);
    if j < |head| {
      assert ConcatMap(f, xs)[j] == f(xs[0])[j];
    } else {
      ConcatMapMember(f, xs[1..], j - |head|);
      var i, k :| 0 <= i < |xs[1..]| && 0 <= k < |f(xs[1..][i])| &&
                  ConcatMap(f, xs[1..])[j - |head|] == f(xs[1..][i])[k];
      assert xs[1..][i] == xs[i + 1];
    }
  }

  /** `xs` without its element at `j`. */
  function DropAt<A>(xs: seq<A>, j: nat): (r: seq<A>)
    requires j < |xs|
    ensures |r| == |xs| - 1
  {
    xs[..j] + xs[j + 1..]
  }

  /** Taking the same element off the front of one list and from position
      `j` of another with the same elements leaves lists with the same
      elements. */
  lemma DropMatching<A>(xs: seq<A>, ys: seq<A>, j: nat)
    requires |xs| > 0 && j < |ys| && ys[j] == xs[0]
    requires multiset(xs) == multiset(ys)
    ensures multiset(xs[1..]) == multiset(DropAt(ys, j))
  {
    assert ys == ys[..j] + [ys[j]] + ys[j + 1..];
    assert multiset(DropAt(ys, j)) == multiset(ys) - multiset{ys[j]};
    assert xs == [xs[0]] + xs[1..];
    assert multiset(xs[1..]) == multiset(xs) - multiset{xs[0]};
  }

  /** What a list yields is what the part before `j`, the element at `j`
      and the part after `j` yield, in that order. */
  lemma ConcatMapAround<A, B>(f: A -> seq<B>, xs: seq<A>, j: nat)
    requires j < |xs|
    ensures ConcatMap(f, xs) == ConcatMap(f, xs[..j]) + f(xs[j]) + ConcatMap(f, xs[j + 1..])
  {
    var left, x, right := xs[..j], xs[j], xs[j + 1..];
    assert xs == (left + [x]) + right;
    ConcatMapAppend(f, left + [x], right);
    ConcatMapAppend(f, left, [x]);
    ConcatMapOne(f, x);
  }

  /** Without the element at `j`, a list yields what the parts before and
      after `j` yield. */
  lemma ConcatMapDropAt<A, B>(f: A -> seq<B>, xs: seq<A>, j: nat)
    requires j < |xs|
    ensures ConcatMap(f, DropAt(xs, j)) == ConcatMap(f, xs[..j]) + ConcatMap(f, xs[j + 1..])
  {
    ConcatMapAppend(f, xs[..j], xs[j + 1..]);
  }

  lemma MultisetMiddle<T>(left: seq<T>, mid: seq<T>, right: seq<T>, t: seq<T>)
    requires multiset(t) == multiset(left + right)
    ensures multiset(mid + t) == multiset(left + mid + right)
  {
  }

  /** Reordering the list reorders what it yields: two lists with the same
      elements, each as often, yield lists with the same elements. */
  lemma {:induction false} ConcatMapReorder<A, B>(f: A -> seq<B>, xs: seq<A>, ys: seq<A>)
    requires multiset(xs) == multiset(ys)
    ensures multiset(ConcatMap(f, xs)) == multiset(ConcatMap(f, ys))
    decreases |xs|
  {
    if |xs| == 0 {
      assert |ys| == |multiset(ys)| == 0;
    } else {
      var x := xs[0];
      assert x in multiset(ys);
      var j :| 0 <= j < |ys| && ys[j] == x;
      DropMatching(xs, ys, j);
      ConcatMapAround(f, ys, j);
      ConcatMapDropAt(f, ys, j);
      ConcatMapReorder(f, xs[1..], DropAt(ys, j));
      MultisetMiddle(ConcatMap(f, ys[..j]), f(x), ConcatMap(f, ys[j + 1..]), ConcatMap(f, xs[1..]));
    }
  }
}

=== FILE: embedding_generator.dfy ===
/** The embedding model, reduced to what the indexing core relies on: blank
    text is rejected, anything else is handed to the sentence encoder. The
    encoder itself is a parameter. */
module Embeddings {
  import opened Wrappers
  import opened PyStr
  import opened Faiss

  /** The sentence encoder: any function from text to a vector. */
  type Encoder = string -> Vector

  /** The encoder always produces vectors of length `n`, the model's
      embedding dimension. */
  ghost predicate FixedLength(encode: Encoder, n: nat) {
    forall text :: |encode(text)| == n
  }

  /** `EmbeddingModel.embed_text`: a ValueError for text that strips to
      nothing, otherwise the encoding of the text as given (not stripped). */
  function EmbedText(encode: Encoder, text: string): (r: Result<Vector>)
    ensures r.Failure? <==> AllSpace(text)
    ensures r.Failure? ==> r.error == ValueError
    ensures r.Success? ==> r.value == encode(text)
  {
    StripEmptyIff(text);
    if Strip(text) == [] then Failure(ValueError) else Success(encode(text))
  }
}

=== FILE: faiss_index.dfy ===
/** The nearest-neighbour index that the vector store wraps: FAISS's
    `IndexIDMap` over an exact `IndexFlatL2`. It keeps (id, vector) entries in
    insertion order and does not look at ids when adding, so one id can be
    stored twice. Vectors are integer sequences and the distance is the
    squared Euclidean distance on integers, standing in for float32 L2. A
    k-nearest query answers with the first k positions of the entries ranked
    by distance, padded with label -1 when there are fewer than k entries. */
module Faiss {

  type Vector = seq<int>

  /** One stored vector and the external id it was added under. */
  datatype Entry = Entry(id: int, vec: Vector)

  /** The index: its dimension `d` (fixed at construction) and its entries. */
  datatype FlatIndex = FlatIndex(d: int, entries: seq<Entry>)

  /** One row of a search answer: a distance and an id, or label -1. */
  datatype Hit = Hit(distance: int, id: int)

  /** The label FAISS uses for "no neighbour". */
  const NoLabel: int := -1

  /** The distance FAISS reports for a padding row: the largest float32. */
  const FloatMax: int := 340282346638528859811704183484516925440

  function Square(x: int): (r: int)
    ensures r >= 0
  {
    if x >= 0 then x * x else (-x) * (-x)
  }

  /** Squared Euclidean distance of two vectors (over their common length). */
  function SquaredL2(a: Vector, b: Vector): (r: int)
    ensures r >= 0
  {
    if |a| == 0 || |b| == 0 then 0 else Square(a[0] - b[0]) + SquaredL2(a[1..], b[1..])
  }

  lemma {:induction false} SquaredL2Self(a: Vector)
    ensures SquaredL2(a, a) == 0
  {
    if |a| > 0 {
      SquaredL2Self(a[1..]);
    }
  }

  /** The ids present in a sequence of entries. */
  function IdsOf(es: seq<Entry>): set<int> {
    set e | e in es :: e.id
  }

  /** The ids present in the index. */
  function Ids(ix: FlatIndex): set<int> {
    IdsOf(ix.entries)
  }

  /** `add_with_ids` for one vector: appended at the end, whatever its id. */
  function Add(ix: FlatIndex, id: int, v: Vector): (r: FlatIndex)
    ensures r.d == ix.d
    ensures |r.entries| == |ix.entries| + 1
    ensures r.entries[..|ix.entries|] == ix.entries && r.entries[|ix.entries|] == Entry(id, v)
    ensures Ids(r) == Ids(ix) + {id}
  {
    var es := ix.entries + [Entry(id, v)];
    assert forall e :: e in es <==> e in ix.entries || e == Entry(id, v);
    FlatIndex(ix.d, es)
  }

  /** The entries whose id differs from `id`, in their original order. */
  function Without(es: seq<Entry>, id: int): (r: seq<Entry>)
    ensures |r| <= |es|
    ensures forall e :: e in r <==> e in es && e.id != id
  {
    if |es| == 0 then []
    else
      var rest := Without(es[1..], id);
      assert forall e :: e in es <==> e == es[0] || e in es[1..];
      if es[0].id == id then rest else [es[0]] + rest
  }

  /** Removing from a concatenation removes from each part: the survivors
      keep their relative order. */
  lemma {:induction false} WithoutAppend(a: seq<Entry>, b: seq<Entry>, id: int)
    ensures Without(a + b, id) == Without(a, id) + Without(b, id)
  {
    if |a| == 0 {
      assert a + b == b;
    } else {
      assert (a + b)[1..] == a[1..] + b;
      WithoutAppend(a[1..], b, id);
    }
  }

  /** A single entry survives exactly when it carries another id. */
  lemma WithoutOne(e: Entry, id: int)
    ensures Without([e], id) == if e.id == id then [] else [e]
  {
    assert [e][1..] == [];
  }

  /** `remove_ids` for one id: every entry with that id goes, the others keep
      their order. */
  function RemoveIds(ix: FlatIndex, id: int): (r: FlatIndex)
    ensures r.d == ix.d
    ensures |r.entries| <= |ix.entries|
    ensures forall e :: e in r.entries <==> e in ix.entries && e.id != id
    ensures Ids(r) == Ids(ix) - {id}
    ensures r.entries == Without(ix.entries, id)
  {
    FlatIndex(ix.d, Without(ix.entries, id))
  }

  /** How many entries carry `id`. */
  function CountId(es: seq<Entry>, id: int): (n: nat)
    ensures n <= |es|
    ensures n == 0 <==> id !in IdsOf(es)
  {
    if |es| == 0 then 0
    else
      assert IdsOf(es) == {es[0].id} + IdsOf(es[1..]) by {
        assert forall e :: e in es <==> e == es[0] || e in es[1..];
      }
      (if es[0].id == id then 1 else 0) + CountId(es[1..], id)
  }

  lemma {:induction false} CountIdAppend(a: seq<Entry>, b: seq<Entry>, id: int)
    ensures CountId(a + b, id) == CountId(a, id) + CountId(b, id)
  {
    if |a| > 0 {
      assert (a + b)[1..] == a[1..] + b;
      CountIdAppend(a[1..], b, id);
    } else {
      assert a + b == b;
    }
  }

  /** Removing an id drops exactly the entries that carry it. */
  lemma {:induction false} WithoutCount(es: seq<Entry>, id: int)
    ensures |Without(es, id)| == |es| - CountId(es, id)
    ensures CountId(Without(es, id), id) == 0
  {
    if |es| > 0 {
      WithoutCount(es[1..], id);
      if es[0].id != id {
        assert ([es[0]] + Without(es[1..], id))[1..] == Without(es[1..], id);
      }
    }
  }

  /** Removing an id that no entry carries changes nothing. */
  lemma {:induction false} WithoutAbsent(es: seq<Entry>, id: int)
    requires id !in IdsOf(es)
    ensures Without(es, id) == es
  {
    if |es| > 0 {
      assert es[0] in es;
      assert IdsOf(es[1..]) <= IdsOf(es) by {
        assert forall e | e in es[1..] :: e in es;
      }
      WithoutAbsent(es[1..], id);
      assert es == [es[0]] + es[1..];
    }
  }

  /** No id is carried by two entries. */
  predicate UniqueIdsOf(es: seq<Entry>) {
    forall i, j | 0 <= i < j < |es| :: es[i].id != es[j].id
  }

  predicate UniqueIds(ix: FlatIndex) {
    UniqueIdsOf(ix.entries)
  }

  lemma UniqueCons(x: Entry, r: seq<Entry>)
    requires UniqueIdsOf(r) && x.id !in IdsOf(r)
    ensures UniqueIdsOf([x] + r)
  {
    var es := [x] + r;
    forall i, j | 0 <= i < j < |es| ensures es[i].id != es[j].id {
      assert es[j] == r[j - 1];
      if i == 0 {
        assert r[j - 1] in r;
      } else {
        assert es[i] == r[i - 1];
      }
    }
  }

  /** Removing an id keeps the remaining ids unique. */
  lemma {:induction false} WithoutUnique(es: seq<Entry>, id: int)
    requires UniqueIdsOf(es)
    ensures UniqueIdsOf(Without(es, id))
  {
    if |es| > 0 {
      var tail := es[1..];
      assert UniqueIdsOf(tail) by {
        forall i, j | 0 <= i < j < |tail| ensures tail[i].id != tail[j].id {
          assert tail[i] == es[i + 1] && tail[j] == es[j + 1];
        }
      }
      WithoutUnique(tail, id);
      if es[0].id != id {
        assert es[0].id !in IdsOf(Without(tail, id)) by {
          forall e | e in Without(tail, id) ensures e.id != es[0].id {
            var k :| 0 <= k < |tail| && tail[k] == e;
            assert es[k + 1] == e;
          }
        }
        UniqueCons(es[0], Without(tail, id));
      }
    }
  }

  lemma IdsOfSnoc(es: seq<Entry>, x: Entry)
    ensures IdsOf(es + [x]) == IdsOf(es) + {x.id}
  {
    assert forall e :: e in es + [x] <==> e in es || e == x;
  }

  /** Dropping the last entry keeps ids unique, and the last entry's id is
      not among the others. */
  lemma UniqueInit(es: seq<Entry>)
    requires |es| > 0 && UniqueIdsOf(es)
    ensures UniqueIdsOf(es[..|es| - 1])
    ensures es[|es| - 1].id !in IdsOf(es[..|es| - 1])
  {
    var init := es[..|es| - 1];
    forall e | e in init ensures e.id != es[|es| - 1].id {
      var k :| 0 <= k < |init| && init[k] == e;
      assert es[k] == e;
    }
  }

  /** When ids are unique there are as many distinct ids as entries. */
  lemma {:induction false} UniqueIdsCount(es: seq<Entry>)
    requires UniqueIdsOf(es)
    ensures |IdsOf(es)| == |es|
  {
    if |es| > 0 {
      var init := es[..|es| - 1];
      var last := es[|es| - 1];
      UniqueInit(es);
      UniqueIdsCount(init);
      assert es == init + [last];
      IdsOfSnoc(init, last);
    }
  }

  /** The positions 0 .. n-1 in increasing order. */
  function Positions(n: nat): (r: seq<nat>)
    ensures |r| == n
    ensures forall i | 0 <= i < n :: r[i] == i
  {
    if n == 0 then [] else Positions(n - 1) + [n - 1]
  }

  /** The distance of every stored vector to the query, by position. */
  function DistanceKeys(ix: FlatIndex, q: Vector): (keys: seq<int>)
    ensures |keys| == |ix.entries|
    ensures forall p | 0 <= p < |ix.entries| :: keys[p] == SquaredL2(ix.entries[p].vec, q)
  {
    seq(|ix.entries|, p requires 0 <= p < |ix.entries| => SquaredL2(ix.entries[p].vec, q))
  }

  /** Every element of `order` is a position of `keys`. */
  predicate ValidPositions(order: seq<nat>, keys: seq<int>) {
    forall i | 0 <= i < |order| :: order[i] < |keys|
  }

  /** `order` lists valid positions of `keys` in non-decreasing key order. */
  predicate SortedBy(order: seq<nat>, keys: seq<int>) {
    && ValidPositions(order, keys)
    && (forall i, j | 0 <= i < j < |order| :: keys[order[i]] <= keys[order[j]])
  }

  /** Every position listed in `s` has key at least `v`. */
  predicate KeysAtLeast(s: seq<nat>, keys: seq<int>, v: int) {
    forall i | 0 <= i < |s| :: s[i] < |keys| && v <= keys[s[i]]
  }

  /** Insert position `p` into a key-sorted list of positions, after every
      position whose key is not larger. */
  function Insert(p: nat, s: seq<nat>, keys: seq<int>): (r: seq<nat>)
    requires p < |keys|
    requires ValidPositions(s, keys)
    ensures multiset(r) == multiset(s) + multiset{p}
  {
    if |s| == 0 then [p]
    else if keys[s[0]] <= keys[p] then
      assert s == [s[0]] + s[1..];
      [s[0]] + Insert(p, s[1..], keys)
    else
      [p] + s
  }

  lemma ConsSorted(x: nat, rest: seq<nat>, keys: seq<int>)
    requires x < |keys|
    requires SortedBy(rest, keys)
    requires KeysAtLeast(rest, keys, keys[x])
    ensures SortedBy([x] + rest, keys)
  {
    var r := [x] + rest;
    forall i, j | 0 <= i < j < |r| ensures keys[r[i]] <= keys[r[j]] {
      assert r[j] == rest[j - 1];
      if i > 0 {
        assert r[i] == rest[i - 1];
      }
    }
  }

  /** A list holding the elements of `t` and one more position `x`, all
      with key at least `v`, has only such keys. */
  lemma MultisetBound(r: seq<nat>, t: seq<nat>, x: nat, keys: seq<int>, v: int)
    requires multiset(r) == multiset(t) + multiset{x}
    requires KeysAtLeast(t, keys, v)
    requires x < |keys| && v <= keys[x]
    ensures KeysAtLeast(r, keys, v)
  {
    forall i | 0 <= i < |r| ensures r[i] < |keys| && v <= keys[r[i]] {
      assert r[i] in multiset(r);
      if r[i] != x {
        assert r[i] in multiset(t);
        var m :| 0 <= m < |t| && t[m] == r[i];
      }
    }
  }

  /** In a sorted list every later position has a key at least the first's. */
  lemma SortedTail(s: seq<nat>, keys: seq<int>)
    requires |s| > 0 && SortedBy(s, keys)
    ensures KeysAtLeast(s[1..], keys, keys[s[0]])
    ensures SortedBy(s[1..], keys)
  {
    forall i | 0 <= i < |s[1..]| ensures s[1..][i] < |keys| && keys[s[0]] <= keys[s[1..][i]] {
      assert s[1..][i] == s[i + 1];
    }
  }

  /** Insertion keeps a list sorted. */
  lemma {:induction false} InsertSorted(p: nat, s: seq<nat>, keys: seq<int>)
    requires p < |keys|
    requires SortedBy(s, keys)
    ensures SortedBy(Insert(p, s, keys), keys)
  {
    if |s| > 0 {
      if keys[s[0]] <= keys[p] {
        SortedTail(s, keys);
        var rest := Insert(p, s[1..], keys);
        InsertSorted(p, s[1..], keys);
        MultisetBound(rest, s[1..], p, keys, keys[s[0]]);
        ConsSorted(s[0], rest, keys);
        assert Insert(p, s, keys) == [s[0]] + rest;
      } else {
        ConsSorted(p, s, keys);
      }
    }
  }

  /** Sort a list of positions by key (insertion sort): the result is a
      permutation of the input in non-decreasing key order. */
  function SortPositions(ps: seq<nat>, keys: seq<int>): (r: seq<nat>)
    requires ValidPositions(ps, keys)
    ensures multiset(r) == multiset(ps)
    ensures SortedBy(r, keys)
  {
    if |ps| == 0 then []
    else
      assert ps == ps[..|ps| - 1] + [ps[|ps| - 1]];
      var sorted := SortPositions(ps[..|ps| - 1], keys);
      InsertSorted(ps[|ps| - 1], sorted, keys);
      Insert(ps[|ps| - 1], sorted, keys)
  }

  /** The entries' positions ranked by distance to `q`. */
  function Ranking(ix: FlatIndex, q: Vector): (order: seq<nat>)
    ensures multiset(order) == multiset(Positions(|ix.entries|))
    ensures SortedBy(order, DistanceKeys(ix, q))
  {
    SortPositions(Positions(|ix.entries|), DistanceKeys(ix, q))
  }

  /** `order` is some ranking of all positions by distance (ties in any order). */
  ghost predicate IsRanking(ix: FlatIndex, q: Vector, order: seq<nat>) {
    && |order| == |ix.entries|
    && multiset(order) == multiset(Positions(|ix.entries|))
    && SortedBy(order, DistanceKeys(ix, q))
  }

  /** The answer row for the entry at position `p`. */
  function HitAt(ix: FlatIndex, q: Vector, p: nat): Hit
    requires p < |ix.entries|
  {
    Hit(SquaredL2(ix.entries[p].vec, q), ix.entries[p].id)
  }

  /** The answer row of every entry, by position. */
  function EntryRows(ix: FlatIndex, q: Vector): (rows: seq<Hit>)
    ensures |rows| == |ix.entries|
    ensures forall p | 0 <= p < |ix.entries| :: rows[p] == HitAt(ix, q, p)
  {
    seq(|ix.entries|, p requires 0 <= p < |ix.entries| => HitAt(ix, q, p))
  }

  /** The first `k` ranked entries as answer rows, padded with label -1. */
  function TopHits(ix: FlatIndex, q: Vector, order: seq<nat>, k: nat): (hits: seq<Hit>)
    requires |order| == |ix.entries|
    requires forall i | 0 <= i < |order| :: order[i] < |ix.entries|
    ensures |hits| == k
  {
    var n := if k < |order| then k else |order|;
    seq(n, i requires 0 <= i < n => HitAt(ix, q, order[i]))
      + seq(k - n, _ => Hit(FloatMax, NoLabel))
  }

  /** `hits` is what an exact k-nearest search may answer: the k-prefix of
      some distance ranking of all entries, padded with label -1. */
  ghost predicate IsKnnAnswer(ix: FlatIndex, q: Vector, k: nat, hits: seq<Hit>) {
    exists order :: IsRanking(ix, q, order) && hits == TopHits(ix, q, order, k)
  }

  /** `index.search(q, k)` for one query row. */
  function Knn(ix: FlatIndex, q: Vector, k: nat): (hits: seq<Hit>)
    ensures |hits| == k
    ensures forall i | 0 <= i < k && i < |ix.entries| :: hits[i].id in Ids(ix)
    ensures forall i | |ix.entries| <= i < k :: hits[i].id == NoLabel
  {
    var order := Ranking(ix, q);
    assert |multiset(order)| == |multiset(Positions(|ix.entries|))|;
    TopHitsIds(ix, q, order, k);
    TopHits(ix, q, order, k)
  }

  lemma TopHitsIds(ix: FlatIndex, q: Vector, order: seq<nat>, k: nat)
    requires |order| == |ix.entries|
    requires forall i | 0 <= i < |order| :: order[i] < |ix.entries|
    ensures forall i | 0 <= i < k && i < |ix.entries| :: TopHits(ix, q, order, k)[i].id in Ids(ix)
    ensures forall i | |ix.entries| <= i < k :: TopHits(ix, q, order, k)[i].id == NoLabel
  {
    var hits := TopHits(ix, q, order, k);
    forall i | 0 <= i < k && i < |ix.entries|
      ensures hits[i].id in Ids(ix)
    {
      assert hits[i] == HitAt(ix, q, order[i]);
      assert ix.entries[order[i]] in ix.entries;
    }
  }

  /** The search answer is a legitimate exact k-nearest answer. */
  lemma KnnIsAnswer(ix: FlatIndex, q: Vector, k: nat)
    ensures IsKnnAnswer(ix, q, k, Knn(ix, q, k))
  {
    var order := Ranking(ix, q);
    assert |multiset(order)| == |multiset(Positions(|ix.entries|))|;
    assert IsRanking(ix, q, order);
  }

  /** Every position occurs somewhere in a ranking. */
  lemma RankingCovers(ix: FlatIndex, q: Vector, order: seq<nat>, p: nat)
    requires IsRanking(ix, q, order)
    requires p < |ix.entries|
    ensures exists j | 0 <= j < |order| :: order[j] == p
  {
    var all := Positions(|ix.entries|);
    assert all[p] == p;
    assert p in multiset(all);
    assert p in multiset(order);
    assert p in order;
  }

  /** In any k-nearest answer (k >= 1, index non-empty) the first row is an
      entry of the index at the smallest distance to the query. */
  lemma NearestFirst(ix: FlatIndex, q: Vector, k: nat, hits: seq<Hit>)
    requires IsKnnAnswer(ix, q, k, hits)
    requires k >= 1 && |ix.entries| >= 1
    ensures exists p | 0 <= p < |ix.entries| :: hits[0] == HitAt(ix, q, p)
    ensures forall p | 0 <= p < |ix.entries| :: hits[0].distance <= SquaredL2(ix.entries[p].vec, q)
  {
    var order :| IsRanking(ix, q, order) && hits == TopHits(ix, q, order, k);
    var keys := DistanceKeys(ix, q);
    assert hits[0] == HitAt(ix, q, order[0]);
    forall p | 0 <= p < |ix.entries|
      ensures hits[0].distance <= SquaredL2(ix.entries[p].vec, q)
    {
      RankingCovers(ix, q, order, p);
      var j :| 0 <= j < |order| && order[j] == p;
      if j > 0 {
        assert keys[order[0]] <= keys[order[j]];
      }
    }
  }

  /** Each of the first rows of a k-nearest answer, one per entry at most,
      is the row of some entry. */
  lemma AnswerRowIsEntry(ix: FlatIndex, q: Vector, k: nat, hits: seq<Hit>, i: nat)
    requires IsKnnAnswer(ix, q, k, hits)
    requires i < k && i < |ix.entries|
    ensures exists p | 0 <= p < |ix.entries| :: hits[i] == HitAt(ix, q, p)
  {
    var order :| IsRanking(ix, q, order) && hits == TopHits(ix, q, order, k);
    assert hits[i] == HitAt(ix, q, order[i]);
  }

  /** A k-nearest answer leaves out no entry strictly nearer than its last
      real row, and when k reaches the entry count it leaves out none. */
  lemma AnswerIncludesNearer(ix: FlatIndex, q: Vector, k: nat, hits: seq<Hit>, p: nat)
    requires IsKnnAnswer(ix, q, k, hits)
    requires p < |ix.entries| && k >= 1
    requires k < |ix.entries| ==> SquaredL2(ix.entries[p].vec, q) < hits[k - 1].distance
    ensures exists j | 0 <= j < k && j < |ix.entries| :: hits[j] == HitAt(ix, q, p)
  {
    var order :| IsRanking(ix, q, order) && hits == TopHits(ix, q, order, k);
    var keys := DistanceKeys(ix, q);
    RankingCovers(ix, q, order, p);
    var j :| 0 <= j < |order| && order[j] == p;
    if j >= k {
      assert false;
    }
    assert hits[j] == HitAt(ix, q, p);
  }

  /** The real rows of a k-nearest answer come in non-decreasing distance. */
  lemma AnswerAscending(ix: FlatIndex, q: Vector, k: nat, hits: seq<Hit>, i: int, j: int)
    requires IsKnnAnswer(ix, q, k, hits)
    requires 0 <= i < j < k && j < |ix.entries|
    ensures hits[i].distance <= hits[j].distance
  {
    var order :| IsRanking(ix, q, order) && hits == TopHits(ix, q, order, k);
    var keys := DistanceKeys(ix, q);
    assert hits[i] == HitAt(ix, q, order[i]) && hits[j] == HitAt(ix, q, order[j]);
    assert keys[order[i]] <= keys[order[j]];
  }
}

=== FILE: file_metadata.dfy ===
/** The unified file metadata record and its dictionary conversions. The
    record is a Python dataclass, which does not check field types, so each
    field holds a dynamically typed value. */
module FileMetadataModel {
  import opened Wrappers

  /** A Python value as it appears in the metadata dictionaries. */
  datatype Value = Str(s: string) | Int(i: int) | NoneValue | Dict(entries: map<string, Value>)

  datatype FileMetadata = FileMetadata(
    filePath: Value,
    filename: Value,
    fileType: Value,
    sizeBytes: Value,
    createdAt: Value,
    lastModified: Value,
    pageCount: Value)

  /** The keys that `to_dict` produces. */
  const DictKeys: set<string> :=
    {"file_path", "filename", "file_type", "size_bytes", "created_at", "last_modified"}

  /** Every field name of the dataclass. */
  const FieldNames: set<string> := DictKeys + {"page_count"}

  /** The fields without a default value. */
  const RequiredFields: set<string> := {"file_path", "filename", "file_type", "size_bytes"}

  /** `FileMetadata.to_dict`: every field except the page count. */
  function ToDict(m: FileMetadata): (d: map<string, Value>)
    ensures d.Keys == DictKeys
    ensures "page_count" !in d
  {
    map[
      "file_path" := m.filePath,
      "filename" := m.filename,
      "file_type" := m.fileType,
      "size_bytes" := m.sizeBytes,
      "created_at" := m.createdAt,
      "last_modified" := m.lastModified]
  }

  /** `dataclasses.asdict(m)`: every field, the page count included. */
  function AsDict(m: FileMetadata): (d: map<string, Value>)
    ensures d.Keys == FieldNames
    ensures forall key | key in DictKeys :: d[key] == ToDict(m)[key]
  {
    ToDict(m)["page_count" := m.pageCount]
  }

  /** `FileMetadata.from_dict(data)`, i.e. `cls(**data)`: a TypeError for a
      missing required field or an unknown key; the timestamps default to the
      current time `now` and the page count to None. */
  function FromDict(d: map<string, Value>, now: string): (r: Result<FileMetadata>)
    ensures r.Success? <==> RequiredFields <= d.Keys <= FieldNames
    ensures r.Failure? ==> r.error == TypeError
    ensures r.Success? ==>
              && r.value.filePath == d["file_path"]
              && r.value.filename == d["filename"]
              && r.value.fileType == d["file_type"]
              && r.value.sizeBytes == d["size_bytes"]
    ensures r.Success? ==> r.value.createdAt == Get(d, "created_at", Str(now))
    ensures r.Success? ==> r.value.lastModified == Get(d, "last_modified", Str(now))
    ensures r.Success? ==> r.value.pageCount == Get(d, "page_count", NoneValue)
  {
    if !(d.Keys <= FieldNames) || !(RequiredFields <= d.Keys) then Failure(TypeError)
    else
      Success(FileMetadata(
        d["file_path"],
        d["filename"],
        d["file_type"],
        d["size_bytes"],
        if "created_at" in d then d["created_at"] else Str(now),
        if "last_modified" in d then d["last_modified"] else Str(now),
        if "page_count" in d then d["page_count"] else NoneValue))
  }

  /** `from_dict(to_dict(m))` gives back `m` with its page count reset to
      None: the round trip is exact exactly when the page count is None. */
  lemma FromDictToDict(m: FileMetadata, now: string)
    ensures FromDict(ToDict(m), now) == Success(m.(pageCount := NoneValue))
    ensures FromDict(ToDict(m), now) == Success(m) <==> m.pageCount == NoneValue
  {
  }

  /** `to_dict(from_dict(d)) == d` for a dictionary with exactly the six keys
      that `to_dict` produces. */
  lemma ToDictFromDict(d: map<string, Value>, now: string)
    requires d.Keys == DictKeys
    ensures FromDict(d, now).Success?
    ensures ToDict(FromDict(d, now).value) == d
  {
    var m := FromDict(d, now).value;
    assert forall key | key in d :: ToDict(m)[key] == d[key];
  }

  /** `asdict` loses nothing: `from_dict(asdict(m)) == m`. */
  lemma FromDictAsDict(m: FileMetadata, now: string)
    ensures FromDict(AsDict(m), now) == Success(m)
  {
  }
}

=== FILE: file_scanner.dfy ===
/** The file scanner: which directory entries are considered, which are
    indexed, what id and metadata they get, what a scan returns, and how the
    results of several roots are merged. The filesystem, the MIME guesser,
    the extractors' inputs, the sentence encoder, SHA-256 and the clock are
    parameters gathered in an environment. */
module FileScanner {
  import opened Wrappers
  import opened PyStr
  import opened Faiss
  import opened Embeddings
  import opened VectorStore
  import opened FileMetadataModel
  import Pdf = PdfExtractor
  import Text = TextFileExtractor
  import opened Concat

  /** The file extensions the scanner indexes, with their MIME types. */
  const SupportedExtensions: map<string, string> :=
    map[".pdf" := "application/pdf", ".txt" := "text/plain", ".md" := "text/markdown"]

  const PdfMimeType: string := "application/pdf"

  /** Ids are SHA-256 digests reduced modulo 10^8. */
  const IdModulus: nat := 100000000

  /** Everything outside the scanner's own logic.
      - `guessType`: the MIME type `mimetypes.guess_type` guesses for a path;
      - `pdfFile`, `textFile`: what the two extractors find at a path;
      - `textSupported`: the text extractor's answer to "is this a supported
        file type" (see `ExtractContent`);
      - `encode`: the sentence encoder; `sha256`: the digest of a path's
        UTF-8 bytes read as an integer;
      - `now`: the clock readings the store stamps the entry for a path
        with, when that entry is added;
      - `saveOk`: whether saving the id map succeeds after the entry for a
        path is added. Both are per call of `add_embedding` as long as no
        path is scanned twice. */
  datatype Env = Env(
    guessType: string -> Option<string>,
    pdfFile: string -> Pdf.PdfFile,
    textFile: string -> Text.TextFile,
    textSupported: string -> bool,
    encode: Encoder,
    sha256: string -> nat,
    now: string -> Clock,
    saveOk: string -> bool)

  /** One entry of a directory listing: its path, whether it is a directory,
      its modification time as ISO text (or the failure of `stat`), and, for
      a directory, its own listing. */
  datatype DirEntry = DirEntry(path: string, isDir: bool, mtime: Result<string>, listing: Listing)

  /** What `os.scandir` gives for a directory: its entries in listing order,
      or a failure to list it at all. A listing that breaks off part-way is
      a shorter listing. */
  datatype Listing = Listed(entries: seq<DirEntry>) | Unlistable

  /** A root handed to `scan_directory`: whether `Path.resolve` succeeds on
      it, whether the resolved path exists, and its listing. */
  datatype Root = Root(resolves: bool, present: bool, listing: Listing)

  /** One element of the list a scan returns. */
  datatype Record = Record(embedding: Vector, metadata: map<string, string>, uniqueId: int)

  /** The store after scanning something, and the records that scan
      returned. */
  datatype ScanStep = ScanStep(store: Store, records: seq<Record>)

  /** `generate_unique_id`: the path's SHA-256 digest modulo 10^8. */
  function GenerateUniqueId(env: Env, path: string): (id: nat)
    ensures id < IdModulus
    ensures InInt64(id)
  {
    env.sha256(path) % IdModulus
  }

  /** The entry is considered at all: `os.path.splitext(path)[1]` is one of
      the supported extensions, compared case-sensitively. */
  predicate IsSupported(path: string) {
    SplitExt(path).1 in SupportedExtensions
  }

  /** `_extract_content`. PDFs (by guessed MIME type) go to the PDF extractor
      for their first page; other files the text extractor accepts go to it
      with its default size limit; anything else, and any failure, gives the
      empty string. The source returns the extractors' result objects rather
      than their text, and asks the text extractor for an
      `is_supported_file_type` method it does not define; the model returns
      each extractor's text and leaves that question to `textSupported`. */
  function ExtractContent(env: Env, path: string): (text: string)
    ensures Strip(text) == text
    ensures env.guessType(path) == Some(PdfMimeType) ==>
              match Pdf.ExtractContent(env.pdfFile(path), path, Some(1))
              case Success(c) => text == c.extractedText
              case Failure(_) => text == []
    ensures env.guessType(path) != Some(PdfMimeType) ==>
              if env.textSupported(path) && Text.ExtractContent(env.textFile(path), path, Text.DefaultMaxSizeMb).Success?
              then text == Strip(env.textFile(path).content.value)
              else text == []
  {
    if env.guessType(path) == Some(PdfMimeType) then
      match Pdf.ExtractContent(env.pdfFile(path), path, Some(1))
      case Success(c) =>
        StripIdempotent(Pdf.BlocksFrom(PdfTexts(env, path), 1));
        c.extractedText
      case Failure(_) => []
    else if env.textSupported(path) then
      match Text.ExtractContent(env.textFile(path), path, Text.DefaultMaxSizeMb)
      case Success(d) =>
        Text.ExtractedText(env.textFile(path), path, Text.DefaultMaxSizeMb);
        d["extracted_text"].s
      case Failure(_) => []
    else []
  }

  /** The page texts the PDF extractor assembles for the first page of the
      file at `path`, when it gets that far. */
  function PdfTexts(env: Env, path: string): seq<string> {
    var file := env.pdfFile(path);
    if file.present && file.reader.Success? then
      Pdf.PageTexts(Pdf.SelectPages(file.reader.value.pages, Some(1))).GetOr([])
    else []
  }

  /** The metadata dictionary the scanner hands to the store. */
  function EntryMetadata(path: string, mtime: string): (m: map<string, string>)
    ensures m.Keys == {"file_path", "filename", "last_modified"}
    ensures m["file_path"] == path && m["filename"] == Basename(path)
    ensures m["last_modified"] == mtime
  {
    map["file_path" := path, "filename" := Basename(path), "last_modified" := mtime]
  }

  /** What a search later reports for an entry the scanner added: its path
      and base name, but the store's own clock reading as `last_modified`,
      since `add_embedding` keeps only the path and name of the dictionary it
      is given and so drops the file's modification time. */
  lemma StoredMetadataOfEntry(path: string, mtime: string, now: Clock)
    ensures var d := MetadataDict(NewMetadata(EntryMetadata(path, mtime), now));
            && d["file_path"] == path && d["filename"] == Basename(path)
            && d["last_modified"] == now.lastModified && d["created_at"] == now.createdAt
  {
  }

  /** What indexing one supported entry did: the store afterwards, the
      record it produced (if any), and whether an exception escaped, which
      also skips the recursion into a directory. */
  datatype Attempt = Attempt(store: Store, records: seq<Record>, raised: bool)

  /** `t` is `s` after adds only: the dimensions are kept, no id leaves the
      id map, and the index's entries are kept in front of any new ones. */
  predicate Grows(s: Store, t: Store) {
    && t.dimension == s.dimension && t.index.d == s.index.d
    && s.idMap.Keys <= t.idMap.Keys
    && |s.index.entries| <= |t.index.entries|
    && t.index.entries[..|s.index.entries|] == s.index.entries
  }

  /** The store holds what `r` reports: its vector under its id in the
      index, and its id in the id map. */
  predicate Holds(t: Store, r: Record) {
    r.uniqueId in t.idMap && Entry(r.uniqueId, r.embedding) in t.index.entries
  }

  /** The store holds every record of `rs`. */
  predicate HoldsAll(t: Store, rs: seq<Record>) {
    forall r | r in rs :: Holds(t, r)
  }

  lemma GrowsTransitive(s: Store, t: Store, u: Store)
    requires Grows(s, t) && Grows(t, u)
    ensures Grows(s, u)
  {
    assert u.index.entries[..|s.index.entries|] == u.index.entries[..|t.index.entries|][..|s.index.entries|];
  }

  /** What a store holds, a store grown from it still holds. */
  lemma GrowsKeepsRecords(s: Store, t: Store, rs: seq<Record>)
    requires Grows(s, t) && HoldsAll(s, rs)
    ensures HoldsAll(t, rs)
  {
    forall r | r in rs ensures Holds(t, r) {
      var k :| 0 <= k < |s.index.entries| && s.index.entries[k] == Entry(r.uniqueId, r.embedding);
      assert t.index.entries[k] == s.index.entries[k];
    }
  }

  /** The body of the per-entry `try` up to the recursion: extract; for
      non-empty content embed, derive the id and metadata, add to the store,
      and record the result. An exception anywhere leaves the records empty
      but keeps what the store did before it: a failed save still leaves the
      entry added in memory. */
  function IndexFile(env: Env, s: Store, e: DirEntry): (a: Attempt)
    ensures Grows(s, a.store)
    ensures Consistent(s) ==> Consistent(a.store)
    ensures IsSupported(e.path) ==> a.records == EntryRecords(env, s.dimension, s.index.d, e)
    ensures |a.records| <= 1 && (a.raised ==> a.records == [])
    ensures ExtractContent(env, e.path) == [] ==> a == Attempt(s, [], false)
    ensures !a.raised && a.records == [] ==> a.store == s
    ensures |a.records| == 1 ==>
              var r := a.records[0];
              && a.store.index.entries == s.index.entries + [Entry(r.uniqueId, r.embedding)]
              && a.store.idMap == s.idMap[r.uniqueId := NewMetadata(r.metadata, env.now(e.path))]
              && a.store.disk.idMapFile == Some(Intact(a.store.idMap))
    ensures HoldsAll(a.store, a.records)
  {
    IndexContent(env, s, e, ExtractContent(env, e.path))
  }

  /** `IndexFile` once the content of the entry is known. */
  function IndexContent(env: Env, s: Store, e: DirEntry, content: string): (a: Attempt)
    ensures Grows(s, a.store)
    ensures Consistent(s) ==> Consistent(a.store)
    ensures a.records == ContentRecords(env, s.dimension, s.index.d, e, content)
    ensures |a.records| <= 1 && (a.raised ==> a.records == [])
    ensures content == [] ==> a == Attempt(s, [], false)
    ensures !a.raised && a.records == [] ==> a.store == s
    ensures |a.records| == 1 ==>
              var r := a.records[0];
              && a.store.index.entries == s.index.entries + [Entry(r.uniqueId, r.embedding)]
              && a.store.idMap == s.idMap[r.uniqueId := NewMetadata(r.metadata, env.now(e.path))]
              && a.store.disk.idMapFile == Some(Intact(a.store.idMap))
    ensures HoldsAll(a.store, a.records)
  {
    if content == [] then Attempt(s, [], false)
    else
      match EmbedText(env.encode, content)
      case Failure(_) => Attempt(s, [], true)
      case Success(embedding) =>
        var id := GenerateUniqueId(env, e.path);
        if e.mtime.Failure? then Attempt(s, [], true)
        else
          var meta := EntryMetadata(e.path, e.mtime.value);
          var step := AddEmbedding(s, embedding, meta, id, env.now(e.path), env.saveOk(e.path));
          AddPreservesConsistency(s, embedding, meta, id, env.now(e.path), env.saveOk(e.path));
          if step.outcome.Raised? then Attempt(step.store, [], true)
          else
            assert Entry(id, embedding) == step.store.index.entries[|s.index.entries|];
            Attempt(step.store, [Record(embedding, meta, id)], false)
  }

  /** What one direct child contributes to the returned list, as a filter
      over the entry alone: a record exactly when its extension is supported,
      its content is non-empty, embeds, its `stat` works, and the store
      accepts the vector and saves. */
  function EntryRecords(env: Env, dimension: int, indexDim: int, e: DirEntry): seq<Record> {
    if IsSupported(e.path) then ContentRecords(env, dimension, indexDim, e, ExtractContent(env, e.path))
    else []
  }

  /** The record an entry with content `content` yields, if any. */
  function ContentRecords(env: Env, dimension: int, indexDim: int, e: DirEntry, content: string): seq<Record> {
    var embedding := EmbedText(env.encode, content);
    if content != [] && embedding.Success? && e.mtime.Success?
       && |embedding.value| == dimension == indexDim && env.saveOk(e.path)
    then [Record(embedding.value, EntryMetadata(e.path, e.mtime.value), GenerateUniqueId(env, e.path))]
    else []
  }

  /** The records of a run of direct children, in listing order. */
  function ExpectedRecords(env: Env, dimension: int, indexDim: int, es: seq<DirEntry>): seq<Record> {
    ConcatMap((e: DirEntry) => EntryRecords(env, dimension, indexDim, e), es)
  }

  function ListingRecords(env: Env, dimension: int, indexDim: int, l: Listing): seq<Record> {
    match l
    case Unlistable => []
    case Listed(es) => ExpectedRecords(env, dimension, indexDim, es)
  }

  /** The body of the loop in `scan_directory` for one entry: unsupported
      entries are passed over; a supported directory whose indexing raised
      nothing is scanned in turn, but only for its effect on the store, the
      records of that nested scan being dropped. */
  function ScanEntry(env: Env, s: Store, e: DirEntry): (r: ScanStep)
    ensures Grows(s, r.store)
    ensures Consistent(s) ==> Consistent(r.store)
    ensures HoldsAll(r.store, r.records)
    ensures r.records == EntryRecords(env, s.dimension, s.index.d, e)
    ensures !IsSupported(e.path) ==> r == ScanStep(s, [])
    ensures IsSupported(e.path) && (!e.isDir || IndexFile(env, s, e).raised) ==>
              r == ScanStep(IndexFile(env, s, e).store, IndexFile(env, s, e).records)
    ensures IsSupported(e.path) && e.isDir && !IndexFile(env, s, e).raised ==>
              HoldsAll(r.store, ListingRecords(env, s.dimension, s.index.d, e.listing))
    decreases e
  {
    if !IsSupported(e.path) then ScanStep(s, [])
    else
      var a := IndexFile(env, s, e);
      if a.raised || !e.isDir then ScanStep(a.store, a.records)
      else
        var nested := ScanListing(env, a.store, e.listing);
        GrowsTransitive(s, a.store, nested.store);
        GrowsKeepsRecords(a.store, nested.store, a.records);
        ScanStep(nested.store, a.records)
  }

  /** The loop of `scan_directory` over a listing, each entry's exceptions
      caught so that the remaining entries are still processed. */
  function ScanEntries(env: Env, s: Store, es: seq<DirEntry>): (r: ScanStep)
    ensures Grows(s, r.store)
    ensures Consistent(s) ==> Consistent(r.store)
    ensures HoldsAll(r.store, r.records)
    ensures r.records == ExpectedRecords(env, s.dimension, s.index.d, es)
    decreases es
  {
    if |es| == 0 then ScanStep(s, [])
    else
      var first := ScanEntry(env, s, es[0]);
      var rest := ScanEntries(env, first.store, es[1..]);
      GrowsTransitive(s, first.store, rest.store);
      GrowsKeepsRecords(first.store, rest.store, first.records);
      ScanStep(rest.store, first.records + rest.records)
  }

  function ScanListing(env: Env, s: Store, l: Listing): (r: ScanStep)
    ensures Grows(s, r.store)
    ensures Consistent(s) ==> Consistent(r.store)
    ensures HoldsAll(r.store, r.records)
    ensures r.records == ListingRecords(env, s.dimension, s.index.d, l)
    decreases l
  {
    match l
    case Unlistable => ScanStep(s, [])
    case Listed(es) => ScanEntries(env, s, es)
  }

  /** `scan_directory(root)`: a root that does not resolve leaves the name
      `root` unbound when the handler formats its message, so an
      UnboundLocalError escapes; a missing or unlistable root gives the empty
      list; otherwise the records of the root's direct children. */
  function ScanDirectory(env: Env, s: Store, root: Root): (r: (Store, Result<seq<Record>>))
    ensures r.1.Success? <==> root.resolves
    ensures !root.resolves ==> r == (s, Failure(UnboundLocalError))
    ensures root.resolves && (!root.present || root.listing.Unlistable?) ==> r == (s, Success([]))
    ensures Grows(s, r.0)
    ensures Consistent(s) ==> Consistent(r.0)
    ensures r.1.Success? ==> HoldsAll(r.0, r.1.value)
    ensures r.1.Success? ==> r.1.value == RootRecords(env, s.dimension, s.index.d, root)
  {
    if !root.resolves then (s, Failure(UnboundLocalError))
    else if !root.present then (s, Success([]))
    else
      var step := ScanListing(env, s, root.listing);
      (step.store, Success(step.records))
  }

  /** What a root contributes: the records of its direct children, or
      nothing when it is missing or cannot be listed. */
  function RootRecords(env: Env, dimension: int, indexDim: int, root: Root): seq<Record> {
    if root.present then ListingRecords(env, dimension, indexDim, root.listing) else []
  }

  /** `order` lists every index below `n` exactly once. */
  ghost predicate IsPermutation(order: seq<nat>, n: nat) {
    multiset(order) == multiset(Positions(n))
  }

  /** `scan_directories_parallel(roots)`, with the scans taken one after the
      other in `order`, the order in which they complete: each completed
      scan's list is appended, and a scan that raised contributes nothing. */
  function ScanDirectoriesParallel(env: Env, s: Store, roots: seq<Root>, order: seq<nat>): (r: ScanStep)
    requires forall k | 0 <= k < |order| :: order[k] < |roots|
    ensures Grows(s, r.store)
    ensures Consistent(s) ==> Consistent(r.store)
    ensures HoldsAll(r.store, r.records)
    ensures r.records == Merged(env, s.dimension, s.index.d, roots, order)
    decreases |order|
  {
    if |order| == 0 then ScanStep(s, [])
    else
      var scanned := ScanDirectory(env, s, roots[order[0]]);
      var found := if scanned.1.Success? then scanned.1.value else [];
      var rest := ScanDirectoriesParallel(env, scanned.0, roots, order[1..]);
      GrowsTransitive(s, scanned.0, rest.store);
      GrowsKeepsRecords(scanned.0, rest.store, found);
      ScanStep(rest.store, found + rest.records)
  }

  /** What the root at position `i` contributes to the merged list: its
      records, or nothing when its scan raised. */
  function RootContribution(env: Env, dimension: int, indexDim: int, roots: seq<Root>, i: nat): seq<Record> {
    if i < |roots| && roots[i].resolves then RootRecords(env, dimension, indexDim, roots[i]) else []
  }

  /** What the roots contribute, concatenated in `order`. */
  function Merged(env: Env, dimension: int, indexDim: int, roots: seq<Root>, order: seq<nat>): seq<Record> {
    ConcatMap((i: nat) => RootContribution(env, dimension, indexDim, roots, i), order)
  }

  /** What `_extract_content` hands back as the source is written: the empty
      string, or the PDF extractor's result object itself. */
  datatype Extracted = NoContent | PdfObject(content: Pdf.PdfContent)

  /** `_extract_content` as written. The PDF branch returns the extractor's
      `PDFContent` object rather than its text; the other branch calls
      `is_supported_file_type`, which the text extractor does not define,
      so the AttributeError is caught and the empty string returned. */
  function ExtractContentAsWritten(env: Env, path: string): (x: Extracted)
    ensures x.PdfObject? <==>
              env.guessType(path) == Some(PdfMimeType) && Pdf.ExtractContent(env.pdfFile(path), path, Some(1)).Success?
  {
    if env.guessType(path) == Some(PdfMimeType) then
      match Pdf.ExtractContent(env.pdfFile(path), path, Some(1))
      case Success(c) => PdfObject(c)
      case Failure(_) => NoContent
    else NoContent
  }

  /** The corrected extraction hands back the text of exactly the result
      the code as written hands back as an object, and for a path guessed
      to be a PDF gives nothing where the code as written gets nothing. */
  lemma CorrectedExtractsAsWrittenText(env: Env, path: string)
    ensures ExtractContentAsWritten(env, path).PdfObject? ==>
              ExtractContent(env, path) == ExtractContentAsWritten(env, path).content.extractedText
    ensures env.guessType(path) == Some(PdfMimeType) && ExtractContentAsWritten(env, path).NoContent? ==>
              ExtractContent(env, path) == []
  {
  }

  /** The per-entry body as written: empty content is skipped, and a
      `PDFContent` object, being truthy, is passed to `embed_text`, whose
      `text.strip()` raises AttributeError before anything is added. */
  function IndexFileAsWritten(env: Env, s: Store, e: DirEntry): (a: Attempt)
    ensures a.store == s
  {
    match ExtractContentAsWritten(env, e.path)
    case NoContent => Attempt(s, [], false)
    case PdfObject(_) => Attempt(s, [], true)
  }

  /** As written, no entry is ever indexed: whatever the file holds, the
      entry yields no record and leaves the store as it was. */
  lemma AsWrittenIndexesNothing(env: Env, s: Store, e: DirEntry)
    ensures IndexFileAsWritten(env, s, e).records == []
    ensures IndexFileAsWritten(env, s, e).store == s
  {
  }

  /** As written, a text file the text extractor reads without error still
      contributes nothing, while the corrected scanner, for a store of the
      encoder's dimension whose saves succeed, indexes it. */
  lemma TextFileIndexedOnlyWhenCorrected(env: Env, n: nat, s: Store, e: DirEntry)
    requires FixedLength(env.encode, n) && env.saveOk(e.path) && s.dimension == n && s.index.d == n
    requires IsSupported(e.path) && e.mtime.Success?
    requires env.guessType(e.path) != Some(PdfMimeType) && env.textSupported(e.path)
    requires Text.ExtractContent(env.textFile(e.path), e.path, Text.DefaultMaxSizeMb).Success?
    requires Strip(env.textFile(e.path).content.value) != []
    ensures IndexFileAsWritten(env, s, e).records == []
    ensures |IndexFile(env, s, e).records| == 1
  {
    Text.ExtractedText(env.textFile(e.path), e.path, Text.DefaultMaxSizeMb);
    EntryIndexedIff(env, n, e);
  }

  /** `path` carries extension `ext` in the sense of `os.path.splitext`: it
      ends with it, and the rest of the final component has a character
      other than a dot. */
  predicate HasExtension(path: string, ext: string) {
    EndsWith(path, ext) && HasNonDot(Basename(path[..|path| - |ext|]))
  }

  /** An entry is considered exactly when its path carries ".pdf", ".txt"
      or ".md", with that case. */
  lemma SupportedIff(path: string)
    ensures IsSupported(path) <==>
              HasExtension(path, ".pdf") || HasExtension(path, ".txt") || HasExtension(path, ".md")
  {
    SupportedExtensionsWellFormed();
    var ext := SplitExt(path).1;
    assert ext in SupportedExtensions <==> ext == ".pdf" || ext == ".txt" || ext == ".md";
    SplitExtIsExtension(path, ".pdf");
    SplitExtIsExtension(path, ".txt");
    SplitExtIsExtension(path, ".md");
  }

  lemma SupportedExtensionsWellFormed()
    ensures IsExtension(".pdf") && IsExtension(".txt") && IsExtension(".md")
  {
  }

  /** Extracted content is already stripped, so content that is not empty
      always embeds: the embedder's blank-text error cannot arise here. */
  lemma ExtractedContentEmbeds(env: Env, path: string)
    requires ExtractContent(env, path) != []
    ensures EmbedText(env.encode, ExtractContent(env, path)) == Success(env.encode(ExtractContent(env, path)))
  {
    StripEmptyIff(ExtractContent(env, path));
  }

  /** `r` is the record scanning entry `e` produces: the entry is supported,
      its content is non-empty, and the record carries the embedding of that
      content, the id derived from the path, and the path and its base name. */
  predicate Produced(env: Env, e: DirEntry, r: Record) {
    && IsSupported(e.path)
    && ExtractContent(env, e.path) != []
    && r.embedding == env.encode(ExtractContent(env, e.path))
    && r.uniqueId == GenerateUniqueId(env, e.path)
    && r.metadata.Keys == {"file_path", "filename", "last_modified"}
    && r.metadata["file_path"] == e.path
    && r.metadata["filename"] == Basename(e.path)
    && e.mtime.Success? && r.metadata["last_modified"] == e.mtime.value
  }

  lemma EntryRecordsProduced(env: Env, dimension: int, indexDim: int, e: DirEntry)
    ensures |EntryRecords(env, dimension, indexDim, e)| <= 1
    ensures |EntryRecords(env, dimension, indexDim, e)| == 1 ==>
              Produced(env, e, EntryRecords(env, dimension, indexDim, e)[0])
  {
    var content := ExtractContent(env, e.path);
    var embedding := EmbedText(env.encode, content);
    if EntryRecords(env, dimension, indexDim, e) != [] {
      var r := Record(embedding.value, EntryMetadata(e.path, e.mtime.value), GenerateUniqueId(env, e.path));
      assert EntryRecords(env, dimension, indexDim, e) == [r];
      assert r.embedding == env.encode(content);
    }
  }

  /** Every record a listing's scan returns was produced by one of its direct
      children; nothing comes from deeper in the tree. */
  lemma RecordsComeFromChildren(env: Env, dimension: int, indexDim: int, es: seq<DirEntry>, j: nat)
    requires j < |ExpectedRecords(env, dimension, indexDim, es)|
    ensures exists i | 0 <= i < |es| :: Produced(env, es[i], ExpectedRecords(env, dimension, indexDim, es)[j])
  {
    var f := (e: DirEntry) => EntryRecords(env, dimension, indexDim, e);
    var all := ConcatMap(f, es);
    assert all == ExpectedRecords(env, dimension, indexDim, es);
    ConcatMapMember(f, es, j);
    var i, k :| 0 <= i < |es| && 0 <= k < |f(es[i])| && all[j] == f(es[i])[k];
    var own := EntryRecords(env, dimension, indexDim, es[i]);
    assert f(es[i]) == own;
    EntryRecordsProduced(env, dimension, indexDim, es[i]);
    assert k == 0;
    assert Produced(env, es[i], all[j]);
  }

  /** An entry that fails (its extraction, embedding, `stat` or store add
      raises, or it yields nothing) costs only its own record: the entries
      before and after it contribute exactly what they would without it. */
  lemma FailingEntryIsolated(env: Env, dimension: int, indexDim: int,
                             a: seq<DirEntry>, e: DirEntry, b: seq<DirEntry>)
    requires EntryRecords(env, dimension, indexDim, e) == []
    ensures ExpectedRecords(env, dimension, indexDim, a + [e] + b) ==
              ExpectedRecords(env, dimension, indexDim, a) + ExpectedRecords(env, dimension, indexDim, b)
  {
    ConcatMapSkip((e: DirEntry) => EntryRecords(env, dimension, indexDim, e), a, e, b);
  }

  /** With a store of the encoder's dimension whose saves succeed, an entry
      yields a record exactly when it is supported, its content is non-empty
      and its `stat` works. */
  lemma EntryIndexedIff(env: Env, n: nat, e: DirEntry)
    requires FixedLength(env.encode, n) && env.saveOk(e.path)
    ensures |EntryRecords(env, n, n, e)| == 1 <==>
              IsSupported(e.path) && ExtractContent(env, e.path) != [] && e.mtime.Success?
  {
    if ExtractContent(env, e.path) != [] {
      ExtractedContentEmbeds(env, e.path);
    }
  }

  /** `scan_directories_parallel` returns, whatever the completion order,
      the per-root lists concatenated in the order the roots were given, up
      to reordering; roots that raise contribute nothing and stop nothing. */
  lemma ParallelIsConcatenation(env: Env, s: Store, roots: seq<Root>, order: seq<nat>)
    requires forall k | 0 <= k < |order| :: order[k] < |roots|
    requires IsPermutation(order, |roots|)
    ensures multiset(ScanDirectoriesParallel(env, s, roots, order).records) ==
              multiset(Merged(env, s.dimension, s.index.d, roots, Positions(|roots|)))
  {
    ConcatMapReorder((i: nat) => RootContribution(env, s.dimension, s.index.d, roots, i), order, Positions(|roots|));
  }
}

=== FILE: monitor.dfy ===
/** The event handler of the filesystem monitor as a state machine. Its only
    state is the debounce map from a path to the time a modification of it
    was last let through; each event yields the new state and the tasks it
    hands to the worker pool. Clock readings are parameters. */
module Monitor {
  import opened Wrappers
  import opened PyStr

  /** Seconds that must pass, strictly, between two modifications of one
      path for the second to be processed. */
  const Cooldown: real := 1.0

  /** The last-modified time assumed for a path never seen before. */
  const NeverModified: real := 0.0

  datatype EventKind = Created | Modified | Deleted | Moved

  /** A watchdog event: its kind, source path, whether it concerns a
      directory, and (for a move) its destination. */
  datatype Event = Event(kind: EventKind, srcPath: string, isDirectory: bool, destPath: string)

  /** A call of `process_event(path, event_type)` submitted to the pool. */
  datatype Task = Task(path: string, eventType: string)

  datatype Handler = Handler(lastModified: map<string, real>)

  /** The handler after an event, and the tasks the event submitted. */
  datatype Transition = Transition(handler: Handler, tasks: seq<Task>)

  /** The handler as it is constructed: nothing modified yet. */
  const Initial: Handler := Handler(map[])

  /** `_should_ignore`: desktop.ini files, thumbnail caches and temporary
      files are not worth reindexing. */
  function ShouldIgnore(path: string): (ignored: bool)
    ensures ignored <==> EndsWith(path, "desktop.ini") || Contains(path, "Thumbs.db") || EndsWith(path, ".tmp")
  {
    if EndsWith(path, "desktop.ini") then true
    else if Contains(path, "Thumbs.db") then true
    else if EndsWith(path, ".tmp") then true
    else false
  }

  /** A modification of `path` at `now` is let through. */
  predicate Passes(h: Handler, path: string, now: real) {
    now - Get(h.lastModified, path, NeverModified) > Cooldown
  }

  /** `on_created`: a file (not a directory) gets a "created" task, without
      the ignore filter and without touching the debounce map. */
  function OnCreated(h: Handler, e: Event): (t: Transition)
    ensures t.handler == h
    ensures |t.tasks| <= 1
    ensures |t.tasks| == 1 <==> !e.isDirectory
    ensures forall k | 0 <= k < |t.tasks| :: t.tasks[k] == Task(e.srcPath, "created")
  {
    if !e.isDirectory then Transition(h, [Task(e.srcPath, "created")]) else Transition(h, [])
  }

  /** `on_modified` at clock reading `now`. Ignored paths change nothing.
      Otherwise the event passes when more than the cooldown has elapsed
      since the path last passed; a passing event records `now` for the path
      (directories included) and gives a file a "modified" task. */
  function OnModified(h: Handler, e: Event, now: real): (t: Transition)
    ensures ShouldIgnore(e.srcPath) || !Passes(h, e.srcPath, now) ==> t == Transition(h, [])
    ensures !ShouldIgnore(e.srcPath) && Passes(h, e.srcPath, now) ==>
              t.handler.lastModified == h.lastModified[e.srcPath := now]
    ensures |t.tasks| == 1 <==> !ShouldIgnore(e.srcPath) && Passes(h, e.srcPath, now) && !e.isDirectory
    ensures forall k | 0 <= k < |t.tasks| :: t.tasks[k] == Task(e.srcPath, "modified")
  {
    if ShouldIgnore(e.srcPath) then Transition(h, [])
    else
      var last := Get(h.lastModified, e.srcPath, NeverModified);
      if now - last > Cooldown then
        var tasks := if !e.isDirectory then [Task(e.srcPath, "modified")] else [];
        Transition(Handler(h.lastModified[e.srcPath := now]), tasks)
      else Transition(h, [])
  }

  /** The watchdog dispatch: deletions and moves are only logged. */
  function Dispatch(h: Handler, e: Event, now: real): (t: Transition)
    ensures e.kind.Deleted? || e.kind.Moved? ==> t == Transition(h, [])
    ensures h.lastModified.Keys <= t.handler.lastModified.Keys
    ensures |t.tasks| <= 1
  {
    match e.kind
    case Created => OnCreated(h, e)
    case Modified => OnModified(h, e, now)
    case Deleted => Transition(h, [])
    case Moved => Transition(h, [])
  }

  /** `task` could have been submitted for event `e`. */
  predicate TaskFor(e: Event, task: Task) {
    && !e.isDirectory
    && task.path == e.srcPath
    && ((e.kind.Created? && task.eventType == "created") || (e.kind.Modified? && task.eventType == "modified"))
  }

  /** Events handled one after another, each with the clock reading at which
      it arrived; the tasks are listed in submission order. */
  function Run(h: Handler, events: seq<(Event, real)>): (t: Transition)
    ensures h.lastModified.Keys <= t.handler.lastModified.Keys
    ensures |t.tasks| <= |events|
    ensures forall k | 0 <= k < |t.tasks| :: exists i | 0 <= i < |events| :: TaskFor(events[i].0, t.tasks[k])
    decreases |events|
  {
    if |events| == 0 then Transition(h, [])
    else
      var first := Dispatch(h, events[0].0, events[0].1);
      var rest := Run(first.handler, events[1..]);
      assert forall k | 0 <= k < |first.tasks| :: TaskFor(events[0].0, first.tasks[k]);
      assert forall k | 0 <= k < |rest.tasks| :: exists i | 1 <= i < |events| :: TaskFor(events[i].0, rest.tasks[k]) by {
        forall k | 0 <= k < |rest.tasks|
          ensures exists i | 1 <= i < |events| :: TaskFor(events[i].0, rest.tasks[k])
        {
          var i :| 0 <= i < |events[1..]| && TaskFor(events[1..][i].0, rest.tasks[k]);
          assert events[1..][i] == events[i + 1];
        }
      }
      Transition(rest.handler, first.tasks + rest.tasks)
  }

  /** A modification passes exactly when more than the cooldown has elapsed
      since the path last passed, or since time 0 for a path never seen. */
  lemma PassesIff(h: Handler, e: Event, now: real)
    requires e.kind.Modified? && !ShouldIgnore(e.srcPath) && !e.isDirectory
    ensures |Dispatch(h, e, now).tasks| == 1 <==>
              if e.srcPath in h.lastModified then now > h.lastModified[e.srcPath] + Cooldown
              else now > Cooldown
  {
  }

  /** An event never changes the debounce entry of any other path. */
  lemma OtherPathsUnchanged(h: Handler, e: Event, now: real, other: string)
    requires other != e.srcPath
    ensures other in Dispatch(h, e, now).handler.lastModified <==> other in h.lastModified
    ensures other in h.lastModified ==> Dispatch(h, e, now).handler.lastModified[other] == h.lastModified[other]
  {
  }

  /** A creation bypasses the ignore filter: even a ".tmp" file gets its
      task. */
  lemma CreatedTmpFileSubmitted(h: Handler)
    ensures Dispatch(h, Event(Created, "notes.tmp", false, ""), 5.0).tasks == [Task("notes.tmp", "created")]
  {
  }

  /** Two modifications of one path whose clock readings are at most the
      cooldown apart submit at most one task between them, and exactly one
      when the first passes. */
  lemma DebouncePair(h: Handler, e: Event, t1: real, t2: real)
    requires e.kind.Modified? && !e.isDirectory
    requires -Cooldown <= t2 - t1 <= Cooldown
    ensures var first := Dispatch(h, e, t1);
            var second := Dispatch(first.handler, e, t2);
            && |first.tasks| + |second.tasks| <= 1
            && (!ShouldIgnore(e.srcPath) && Passes(h, e.srcPath, t1) ==> |first.tasks| + |second.tasks| == 1)
  {
  }

  /** Modifications of `path` (a file) at the given clock readings. */
  function ModifyBurst(path: string, times: seq<real>): (events: seq<(Event, real)>)
    ensures |events| == |times|
    ensures forall i | 0 <= i < |events| :: events[i] == (Event(Modified, path, false, ""), times[i])
  {
    if |times| == 0 then [] else [(Event(Modified, path, false, ""), times[0])] + ModifyBurst(path, times[1..])
  }

  /** Once a path has passed at or after `start`, modifications up to the
      cooldown after `start` are all suppressed and change nothing. */
  lemma {:induction false} BurstAfterPass(h: Handler, path: string, times: seq<real>, start: real)
    requires path in h.lastModified && h.lastModified[path] >= start
    requires forall i | 0 <= i < |times| :: times[i] <= start + Cooldown
    ensures Run(h, ModifyBurst(path, times)) == Transition(h, [])
  {
    if |times| > 0 {
      var events := ModifyBurst(path, times);
      assert events[1..] == ModifyBurst(path, times[1..]);
      BurstAfterPass(h, path, times[1..], start);
    }
  }

  /** A burst of modifications of one file that all fall within one cooldown
      window submits at most one task. */
  lemma {:induction false} BurstAtMostOne(h: Handler, path: string, times: seq<real>, start: real)
    requires forall i | 0 <= i < |times| :: start <= times[i] <= start + Cooldown
    ensures |Run(h, ModifyBurst(path, times)).tasks| <= 1
  {
    if |times| > 0 {
      var events := ModifyBurst(path, times);
      assert events[1..] == ModifyBurst(path, times[1..]);
      var first := Dispatch(h, events[0].0, times[0]);
      if first.handler == h {
        BurstAtMostOne(h, path, times[1..], start);
      } else {
        BurstAfterPass(first.handler, path, times[1..], start);
      }
    }
  }
}

=== FILE: pdf_extractor.dfy ===
/** The pure parts of the PDF extractor: the metadata dictionary, the page
    selection, the assembly of page texts into one string, and the defaults
    of the content accessors. The PDF reader is a parameter: a document is
    its information dictionary and the text each page yields (or the
    failure of extracting it). */
module PdfExtractor {
  import opened Wrappers
  import opened PyStr
  import opened FileMetadataModel

  /** What the reader makes of a PDF: the document information dictionary
      (None when the file has none) and, per page, its extracted text. */
  datatype PdfDoc = PdfDoc(info: Option<map<string, Value>>, pages: seq<Result<string>>)

  /** The file at a path: whether it exists, and what opening it with the
      reader gives. */
  datatype PdfFile = PdfFile(present: bool, reader: Result<PdfDoc>)

  /** `PDFContent`: the metadata dictionary and the extracted text. */
  datatype PdfContent = PdfContent(metadata: map<string, Value>, extractedText: string)

  const Unknown: string := "Unknown"

  /** The keys of the metadata dictionary the extractor builds. */
  const MetadataKeys: set<string> := {"filename", "file_path", "page_count", "creation_date"}

  /** The document's `/CreationDate`, or "Unknown" when it or the whole
      information dictionary is missing. */
  function CreationDate(info: Option<map<string, Value>>): (v: Value)
    ensures info.Some? && "/CreationDate" in info.value ==> v == info.value["/CreationDate"]
    ensures info.None? || "/CreationDate" !in info.value ==> v == Str(Unknown)
  {
    Get(info.GetOr(map[]), "/CreationDate", Str(Unknown))
  }

  /** `_extract_metadata`: file name, path, the document's total page count
      and its creation date. */
  function ExtractMetadata(doc: PdfDoc, path: string): (m: map<string, Value>)
    ensures m.Keys == MetadataKeys
    ensures m["filename"] == Str(Basename(path)) && m["file_path"] == Str(path)
    ensures m["page_count"] == Int(|doc.pages|)
    ensures m["creation_date"] == CreationDate(doc.info)
  {
    map[
      "filename" := Str(Basename(path)),
      "file_path" := Str(path),
      "page_count" := Int(|doc.pages|),
      "creation_date" := CreationDate(doc.info)]
  }

  /** The line that introduces page `k` (numbered from 1). */
  function Header(k: nat): (h: string)
    ensures |h| >= 1 && h[0] == '-'
  {
    "--- Page " + NatToString(k) + " ---\n"
  }

  /** The piece page `k` contributes: nothing for an empty text, otherwise
      its header followed by the text. */
  function Block(k: nat, text: string): string {
    if text == [] then [] else Header(k) + text
  }

  /** The pieces of consecutive pages numbered from `first`, joined with no
      separator. */
  function BlocksFrom(texts: seq<string>, first: nat): (r: string)
  {
    if |texts| == 0 then []
    else Block(first, texts[0]) + BlocksFrom(texts[1..], first + 1)
  }

  /** The text of every page, or a failure as soon as one page's extraction
      fails. */
  function PageTexts(pages: seq<Result<string>>): (r: Result<seq<string>>)
    ensures r.Success? <==> forall i | 0 <= i < |pages| :: pages[i].Success?
    ensures r.Success? ==> |r.value| == |pages|
    ensures r.Success? ==> forall i | 0 <= i < |pages| :: r.value[i] == pages[i].value
  {
    if |pages| == 0 then Success([])
    else
      var init := PageTexts(pages[..|pages| - 1]);
      var last := pages[|pages| - 1];
      if init.Failure? then
        assert !pages[..|pages| - 1][FirstFailure(pages[..|pages| - 1])].Success?;
        init
      else if last.Failure? then Failure(last.error)
      else Success(init.value + [last.value])
  }

  /** The position of some failing page, when there is one. */
  function FirstFailure(pages: seq<Result<string>>): (i: nat)
    requires exists j | 0 <= j < |pages| :: pages[j].Failure?
    ensures i < |pages| && pages[i].Failure?
  {
    if pages[0].Failure? then 0 else FirstFailure(pages[1..]) + 1
  }

  /** `reader.pages[:n_pages]` when a page count is given, all pages
      otherwise. */
  function SelectPages<T>(pages: seq<T>, nPages: Option<int>): (r: seq<T>)
    ensures |r| <= |pages| && r == pages[..|r|]
    ensures nPages.None? ==> r == pages
    ensures nPages.Some? && nPages.value >= 0 ==>
              |r| == if nPages.value <= |pages| then nPages.value else |pages|
    ensures nPages.Some? && nPages.value < 0 ==>
              |r| == if |pages| + nPages.value >= 0 then |pages| + nPages.value else 0
  {
    if nPages.Some? then SliceTo(pages, nPages.value) else pages
  }

  /** `PDFExtractor.extract_content`: a FileNotFoundError for a missing file,
      checked before the reader is touched; a RuntimeError for any failure of
      the reader or of a selected page; otherwise the metadata and the
      stripped assembly of the selected pages' texts. */
  function ExtractContent(file: PdfFile, path: string, nPages: Option<int>): (r: Result<PdfContent>)
    ensures !file.present ==> r == Failure(FileNotFoundError)
    ensures file.present && file.reader.Failure? ==> r == Failure(RuntimeError)
    ensures file.present && r.Failure? ==> r.error == RuntimeError
    ensures r.Success? ==> file.present && file.reader.Success?
    ensures r.Success? ==> r.value.metadata == ExtractMetadata(file.reader.value, path)
    ensures file.present && file.reader.Success? ==>
              (r.Success? <==> PageTexts(SelectPages(file.reader.value.pages, nPages)).Success?)
    ensures r.Success? ==>
              r.value.extractedText == Strip(BlocksFrom(PageTexts(SelectPages(file.reader.value.pages, nPages)).value, 1))
  {
    if !file.present then Failure(FileNotFoundError)
    else if file.reader.Failure? then Failure(RuntimeError)
    else
      var doc := file.reader.value;
      var texts := PageTexts(SelectPages(doc.pages, nPages));
      if texts.Failure? then Failure(RuntimeError)
      else Success(PdfContent(ExtractMetadata(doc, path), Strip(BlocksFrom(texts.value, 1))))
  }

  /** The page loop of `extract_content`, as the source writes it: each
      non-empty page text is appended with its header, numbering from 1. */
  method AssemblePages(texts: seq<string>) returns (joined: string)
    ensures joined == BlocksFrom(texts, 1)
  {
    joined := [];
    var i := 0;
    while i < |texts|
      invariant 0 <= i <= |texts|
      invariant joined == BlocksFrom(texts[..i], 1)
    {
      var pageNum := i + 1;
      if texts[i] != [] {
        joined := joined + (Header(pageNum) + texts[i]);
      }
      BlocksSnoc(texts, i);
      i := i + 1;
    }
    assert texts[..i] == texts;
  }

  /** `PDFContent.filename`; the accessors below default as `dict.get`
      does when the key is missing. */
  function Filename(c: PdfContent): Value {
    Get(c.metadata, "filename", Str(Unknown))
  }

  /** `PDFContent.file_path`. */
  function FilePath(c: PdfContent): Value {
    Get(c.metadata, "file_path", Str(Unknown))
  }

  /** `PDFContent.page_count`. */
  function PageCount(c: PdfContent): Value {
    Get(c.metadata, "page_count", Int(0))
  }

  /** `PDFContent.creation_date`. */
  function CreationDateOf(c: PdfContent): Value {
    Get(c.metadata, "creation_date", Str(Unknown))
  }

  /** On content whose metadata lacks the keys, the accessors fall back to
      "Unknown", "Unknown", 0 and "Unknown". */
  lemma AccessorDefaults(c: PdfContent)
    requires c.metadata.Keys !! {"filename", "file_path", "page_count", "creation_date"}
    ensures Filename(c) == Str(Unknown) && FilePath(c) == Str(Unknown)
    ensures PageCount(c) == Int(0) && CreationDateOf(c) == Str(Unknown)
  {
  }

  /** On content the extractor produced, the accessors report the base name,
      the path, the document's total page count whatever `n_pages` selected,
      and the creation date. */
  lemma ExtractedAccessors(file: PdfFile, path: string, nPages: Option<int>)
    requires ExtractContent(file, path, nPages).Success?
    ensures var c := ExtractContent(file, path, nPages).value;
            && Filename(c) == Str(Basename(path))
            && FilePath(c) == Str(path)
            && PageCount(c) == Int(|file.reader.value.pages|)
            && CreationDateOf(c) == CreationDate(file.reader.value.info)
  {
  }

  /** When the first page has text, the pieces open with that page's header. */
  lemma BlocksLeadWithHeader(texts: seq<string>, first: nat)
    requires |texts| > 0 && texts[0] != []
    ensures var r := BlocksFrom(texts, first); |r| > |Header(first)| && r[..|Header(first)|] == Header(first)
  {
    var h := Header(first);
    var r := BlocksFrom(texts, first);
    assert r == h + texts[0] + BlocksFrom(texts[1..], first + 1);
    assert r[..|h|] == h;
  }

  /** A page's number is its position: the pieces of two runs of pages are
      the pieces of the first run followed by those of the second, numbered
      on from where the first stopped, whether or not pages were empty. */
  lemma {:induction false} BlocksAppend(a: seq<string>, b: seq<string>, first: nat)
    ensures BlocksFrom(a + b, first) == BlocksFrom(a, first) + BlocksFrom(b, first + |a|)
  {
    if |a| == 0 {
      assert a + b == b;
      assert BlocksFrom(a, first) == [];
      assert BlocksFrom(a + b, first) == BlocksFrom(b, first + |a|);
    } else {
      var ab := a + b;
      assert ab[0] == a[0];
      assert ab[1..] == a[1..] + b;
      var x, ra, rb := Block(first, a[0]), BlocksFrom(a[1..], first + 1), BlocksFrom(b, first + |a|);
      BlocksAppend(a[1..], b, first + 1);
      calc {
        BlocksFrom(ab, first);
        { BlocksUnfold(ab, first); }
        x + BlocksFrom(a[1..] + b, first + 1);
        x + (ra + rb);
        { ConcatAssoc(x, ra, rb); }
        (x + ra) + rb;
        { BlocksUnfold(a, first); }
        BlocksFrom(a, first) + rb;
      }
    }
  }

  lemma BlocksUnfold(texts: seq<string>, first: nat)
    requires |texts| > 0
    ensures BlocksFrom(texts, first) == Block(first, texts[0]) + BlocksFrom(texts[1..], first + 1)
  {
  }

  lemma ConcatAssoc(x: string, y: string, z: string)
    ensures x + (y + z) == (x + y) + z
  {
  }

  /** Taking one more page adds that page's piece, numbered by its position. */
  lemma BlocksSnoc(texts: seq<string>, i: nat)
    requires i < |texts|
    ensures BlocksFrom(texts[..i + 1], 1) == BlocksFrom(texts[..i], 1) + Block(i + 1, texts[i])
  {
    assert texts[..i + 1] == texts[..i] + [texts[i]];
    BlocksAppend(texts[..i], [texts[i]], 1);
    assert BlocksFrom([texts[i]], i + 1) == Block(i + 1, texts[i]) + BlocksFrom([], i + 2);
  }

  /** The assembled text is empty exactly when every page text is. */
  lemma {:induction false} BlocksEmptyIff(texts: seq<string>, first: nat)
    ensures BlocksFrom(texts, first) == [] <==> forall i | 0 <= i < |texts| :: texts[i] == []
  {
    if |texts| > 0 {
      var tail := texts[1..];
      BlocksEmptyIff(tail, first + 1);
      assert forall i | 1 <= i < |texts| :: texts[i] == tail[i - 1];
    }
  }

  /** When some page has text, the assembly holds a '-' of its header, so it
      is not all whitespace. */
  lemma {:induction false} BlocksNotBlank(texts: seq<string>, first: nat, k: nat)
    requires k < |texts| && texts[k] != []
    ensures !AllSpace(BlocksFrom(texts, first))
  {
    var block := Block(first, texts[0]);
    var rest := BlocksFrom(texts[1..], first + 1);
    assert BlocksFrom(texts, first) == block + rest;
    if k == 0 {
      assert (block + rest)[0] == '-';
    } else {
      assert texts[1..][k - 1] == texts[k];
      BlocksNotBlank(texts[1..], first + 1, k - 1);
      var j :| 0 <= j < |rest| && !IsSpace(rest[j]);
      assert (block + rest)[|block| + j] == rest[j];
    }
  }

  /** The extracted text is empty exactly when every selected page yielded
      empty text: headers alone never survive, and text never vanishes. */
  lemma ExtractedTextEmptyIff(texts: seq<string>)
    ensures Strip(BlocksFrom(texts, 1)) == [] <==> forall i | 0 <= i < |texts| :: texts[i] == []
  {
    StripEmptyIff(BlocksFrom(texts, 1));
    BlocksEmptyIff(texts, 1);
    if exists k | 0 <= k < |texts| :: texts[k] != [] {
      var k :| 0 <= k < |texts| && texts[k] != [];
      BlocksNotBlank(texts, 1, k);
    }
  }

  /** With `n_pages = n` for 0 <= n, only the first n pages matter: two
      documents that agree on them (and on their information and page count)
      give the same result, even when a later page cannot be read. */
  lemma OnlySelectedPagesMatter(d1: PdfDoc, d2: PdfDoc, path: string, n: nat)
    requires n <= |d1.pages| && |d1.pages| == |d2.pages|
    requires d1.pages[..n] == d2.pages[..n] && d1.info == d2.info
    ensures ExtractContent(PdfFile(true, Success(d1)), path, Some(n)) ==
            ExtractContent(PdfFile(true, Success(d2)), path, Some(n))
  {
  }
}

=== FILE: pystr.dfy ===
/** The pieces of Python's string and path handling that the indexing core
    relies on: `str.strip`, `str.endswith`, `in` on strings, `str.rfind`,
    `os.path.splitext`, `os.path.basename`, `pathlib.PurePath.suffix`,
    `str(int)` and the slice `s[:n]`. Paths use the POSIX separator '/'. */
module PyStr {

  /** Python's `str.isspace()` for a single character. */
  predicate IsSpace(c: char) {
    || c == ' '
    || ('\t' <= c <= '\r')
    || ('\U{1c}' <= c <= '\U{1f}')
    || c == '\U{85}'
    || c == '\U{a0}'
    || c == '\U{1680}'
    || ('\U{2000}' <= c <= '\U{200a}')
    || c == '\U{2028}'
    || c == '\U{2029}'
    || c == '\U{202f}'
    || c == '\U{205f}'
    || c == '\U{3000}'
  }

  /** Every character is whitespace: `not s.strip()` in Python. */
  predicate AllSpace(s: string) {
    forall i | 0 <= i < |s| :: IsSpace(s[i])
  }

  /** Length of the run of whitespace at the start of `s`. */
  function LeadingSpace(s: string): (n: nat)
    ensures n <= |s|
    ensures forall i | 0 <= i < n :: IsSpace(s[i])
    ensures n < |s| ==> !IsSpace(s[n])
  {
    if |s| == 0 || !IsSpace(s[0]) then 0 else 1 + LeadingSpace(s[1..])
  }

  /** Length of the run of whitespace at the end of `s`. */
  function TrailingSpace(s: string): (n: nat)
    ensures n <= |s|
    ensures forall i | |s| - n <= i < |s| :: IsSpace(s[i])
    ensures n < |s| ==> !IsSpace(s[|s| - n - 1])
  {
    if |s| == 0 || !IsSpace(s[|s| - 1]) then 0 else 1 + TrailingSpace(s[..|s| - 1])
  }

  /** Python's `s.strip()`: drop leading and trailing whitespace. */
  function Strip(s: string): (r: string)
    ensures |r| <= |s|
    ensures r == [] || (!IsSpace(r[0]) && !IsSpace(r[|r| - 1]))
  {
    var a := LeadingSpace(s);
    if a == |s| then [] else s[a .. |s| - TrailingSpace(s)]
  }

  /** Strip removes whitespace only, and only at the two ends: the result is
      an infix of `s` framed by whitespace. */
  lemma StripIsFramedInfix(s: string)
    ensures exists i | 0 <= i <= |s| - |Strip(s)| ::
              && Strip(s) == s[i .. i + |Strip(s)|]
              && AllSpace(s[..i])
              && AllSpace(s[i + |Strip(s)|..])
  {
    var a := LeadingSpace(s);
    assert AllSpace(s[..a]);
    if a == |s| {
      assert Strip(s) == s[a .. a + 0];
    } else {
      var b := |s| - TrailingSpace(s);
      assert Strip(s) == s[a .. b];
      assert AllSpace(s[b..]);
    }
  }

  /** The result of strip is empty exactly when the input is all whitespace. */
  lemma StripEmptyIff(s: string)
    ensures Strip(s) == [] <==> AllSpace(s)
  {
    var a := LeadingSpace(s);
    if a < |s| {
      assert !IsSpace(s[a]);
    }
  }

  /** Strip leaves a string that has no whitespace at its ends untouched, so
      stripping twice is the same as stripping once. */
  lemma {:induction false} StripIdempotent(s: string)
    ensures Strip(Strip(s)) == Strip(s)
  {
    var r := Strip(s);
    if r != [] {
      assert LeadingSpace(r) == 0;
      assert TrailingSpace(r) == 0;
      assert r[0 .. |r| - 0] == r;
    }
  }

  /** Python's `s.endswith(suffix)`. */
  predicate EndsWith(s: string, suffix: string) {
    |suffix| <= |s| && s[|s| - |suffix|..] == suffix
  }

  /** `sub` occurs in `s` starting at index `i`. */
  predicate OccursAt(s: string, sub: string, i: int) {
    0 <= i <= |s| - |sub| && s[i .. i + |sub|] == sub
  }

  /** Python's `sub in s` on strings. */
  predicate Contains(s: string, sub: string) {
    exists i | 0 <= i <= |s| - |sub| :: OccursAt(s, sub, i)
  }

  /** Python's `s.rfind(c)` for one character: the last index of `c`, or -1. */
  function RFind(s: string, c: char): (r: int)
    ensures -1 <= r < |s|
    ensures r >= 0 ==> s[r] == c
    ensures forall k | r < k < |s| :: s[k] != c
  {
    if |s| == 0 then -1
    else if s[|s| - 1] == c then |s| - 1
    else RFind(s[..|s| - 1], c)
  }

  /** Some character of `s` is not a dot. */
  predicate HasNonDot(s: string) {
    exists k | 0 <= k < |s| :: s[k] != '.'
  }

  /** Some index in [lo, hi) of `s` holds a character other than a dot: the
      scan over leading dots that `splitext` performs. */
  predicate NonDotIn(s: string, lo: int, hi: int)
    requires 0 <= lo <= hi <= |s|
    decreases hi - lo
  {
    lo < hi && (s[lo] != '.' || NonDotIn(s, lo + 1, hi))
  }

  lemma NonDotInIff(s: string, lo: int, hi: int)
    requires 0 <= lo <= hi <= |s|
    ensures NonDotIn(s, lo, hi) <==> HasNonDot(s[lo..hi])
    decreases hi - lo
  {
    if lo < hi {
      NonDotInIff(s, lo + 1, hi);
      if s[lo] == '.' && HasNonDot(s[lo..hi]) {
        var k :| 0 <= k < hi - lo && s[lo..hi][k] != '.';
        assert s[lo + 1..hi][k - 1] != '.';
      }
    }
  }

  /** `os.path.basename(p)`: everything after the last '/'. */
  function Basename(p: string): (r: string)
    ensures EndsWith(p, r)
    ensures forall k | 0 <= k < |r| :: r[k] != '/'
    ensures |r| == |p| || p[|p| - |r| - 1] == '/'
  {
    p[RFind(p, '/') + 1..]
  }

  /** `os.path.splitext(p)` (posixpath): the extension is the part from the
      last dot on, provided that dot lies in the final path component and is
      preceded there by something other than dots; otherwise it is empty. */
  function SplitExt(p: string): (r: (string, string))
    ensures r.0 + r.1 == p
    ensures r.1 == [] || r.1[0] == '.'
    ensures forall k | 1 <= k < |r.1| :: r.1[k] != '.' && r.1[k] != '/'
  {
    var sepIndex := RFind(p, '/');
    var dotIndex := RFind(p, '.');
    if dotIndex > sepIndex && NonDotIn(p, sepIndex + 1, dotIndex) then
      var ext := p[dotIndex..];
      assert forall k | 1 <= k < |ext| :: ext[k] == p[dotIndex + k];
      assert p[..dotIndex] + ext == p;
      (p[..dotIndex], ext)
    else
      (p, [])
  }

  /** A well-formed extension: a dot followed by characters that are neither
      dots nor separators. */
  predicate IsExtension(e: string) {
    |e| >= 1 && e[0] == '.' && forall k | 1 <= k < |e| :: e[k] != '.' && e[k] != '/'
  }

  /** Appending characters other than `c` does not move the last `c`. */
  lemma {:induction false} RFindAppend(x: string, e: string, c: char)
    requires forall k | 0 <= k < |e| :: e[k] != c
    ensures RFind(x + e, c) == RFind(x, c)
    decreases |e|
  {
    if |e| == 0 {
      assert x + e == x;
    } else {
      var e' := e[..|e| - 1];
      assert (x + e)[..|x + e| - 1] == x + e';
      RFindAppend(x, e', c);
    }
  }

  /** The last dot of `x + e` is the first character of the extension `e`. */
  lemma LastDotOfExtension(x: string, e: string)
    requires IsExtension(e)
    ensures RFind(x + e, '.') == |x|
  {
    var tail := e[1..];
    assert e == ['.'] + tail;
    assert x + e == (x + ['.']) + tail;
    RFindAppend(x + ['.'], tail, '.');
  }

  /** `splitext(x + e)` for an extension `e` splits off exactly `e` when the
      final component of `x` has a non-dot character, and nothing otherwise. */
  lemma SplitExtAppend(x: string, e: string)
    requires IsExtension(e)
    ensures SplitExt(x + e) == if HasNonDot(Basename(x)) then (x, e) else (x + e, [])
  {
    var p := x + e;
    assert forall k | 0 <= k < |e| :: e[k] != '/';
    RFindAppend(x, e, '/');
    LastDotOfExtension(x, e);
    var sep := RFind(x, '/');
    assert p[sep + 1 .. |x|] == Basename(x);
    NonDotInIff(p, sep + 1, |x|);
    assert p[..|x|] == x;
    assert p[|x|..] == e;
  }

  /** `splitext(p)[1] == e` holds exactly when `p` ends with `e` and the rest
      of the final path component before it has a character other than a dot
      (so ".txt" and "..txt" as whole file names have no extension). */
  lemma SplitExtIsExtension(p: string, e: string)
    requires IsExtension(e)
    ensures SplitExt(p).1 == e <==>
              EndsWith(p, e) && HasNonDot(Basename(p[..|p| - |e|]))
  {
    var r := SplitExt(p);
    if r.1 == e {
      assert p == r.0 + e;
      assert p[|p| - |e|..] == e;
    }
    if EndsWith(p, e) {
      var x := p[..|p| - |e|];
      assert p == x + e;
      SplitExtAppend(x, e);
    }
  }

  /** The final component of a path, as `pathlib.PurePath.name` gives it for
      a normalised path. */
  function PathName(p: string): (r: string)
    ensures forall k | 0 <= k < |r| :: r[k] != '/'
  {
    Basename(p)
  }

  /** The suffix of one path component: from its last dot on, unless that
      dot is its first or last character. */
  function NameSuffix(name: string): (r: string)
    ensures r == [] || (r[0] == '.' && |r| >= 2)
    ensures forall k | 1 <= k < |r| :: r[k] != '.'
    ensures EndsWith(name, r)
  {
    var i := RFind(name, '.');
    if 0 < i < |name| - 1 then
      var suffix := name[i..];
      assert forall k | 1 <= k < |suffix| :: suffix[k] == name[i + k];
      suffix
    else []
  }

  /** `pathlib.PurePath.suffix`: the suffix of the final path component. */
  function PathSuffix(p: string): (r: string)
    ensures r == [] || (r[0] == '.' && |r| >= 2)
    ensures forall k | 1 <= k < |r| :: r[k] != '.' && r[k] != '/'
    ensures EndsWith(PathName(p), r)
  {
    var name := PathName(p);
    var r := NameSuffix(name);
    assert forall k | 0 <= k < |r| :: r[k] == name[|name| - |r| + k];
    r
  }

  /** The number a string of decimal digits denotes, most significant
      digit first. */
  function DigitsValue(r: string): int {
    if |r| == 0 then 0
    else DigitsValue(r[..|r| - 1]) * 10 + (r[|r| - 1] as int - '0' as int)
  }

  /** `str(n)` for a non-negative integer: its decimal digits. */
  function NatToString(n: nat): (r: string)
    ensures |r| >= 1
    ensures forall k | 0 <= k < |r| :: '0' <= r[k] <= '9'
  {
    var digit := ['0' + (n % 10) as char];
    if n < 10 then digit else NatToString(n / 10) + digit
  }

  /** The digits `str(n)` writes denote `n`, with no leading zero except in
      "0" itself. */
  lemma {:induction false} NatToStringValue(n: nat)
    ensures DigitsValue(NatToString(n)) == n
    ensures n == 0 <==> NatToString(n) == "0"
    ensures |NatToString(n)| > 1 ==> NatToString(n)[0] != '0'
  {
    if n >= 10 {
      var init, digit := NatToString(n / 10), ['0' + (n % 10) as char];
      NatToStringValue(n / 10);
      assert NatToString(n) == init + digit;
      assert (init + digit)[..|init|] == init;
    }
  }

  /** Different numbers are written differently, so no two pages share a
      header. */
  lemma NatToStringInjective(a: nat, b: nat)
    ensures NatToString(a) == NatToString(b) ==> a == b
  {
    NatToStringValue(a);
    NatToStringValue(b);
  }

  /** Python's slice `s[:n]` for an integer `n`: negative `n` counts from the
      end, and out-of-range bounds are clamped. */
  function SliceTo<T>(s: seq<T>, n: int): (r: seq<T>)
    ensures |r| <= |s| && r == s[..|r|]
    ensures 0 <= n <= |s| ==> |r| == n
    ensures n > |s| ==> r == s
    ensures n < 0 && -n <= |s| ==> |r| == |s| + n
    ensures n < 0 && -n > |s| ==> r == []
  {
    if n >= 0 then
      if n <= |s| then s[..n] else s
    else if |s| + n >= 0 then s[..|s| + n]
    else []
  }
}

=== FILE: search_engine.dfy ===
/** The search engine: a query is embedded and the embedding looked up in
    the vector store; whatever goes wrong is reported as one RuntimeError.
    The store is only read, so it is not part of the result. */
module SearchEngine {
  import opened Wrappers
  import opened PyStr
  import opened Faiss
  import opened Embeddings
  import VS = VectorStore

  /** The number of results asked for when the caller gives none. */
  const DefaultTopK: int := 5

  /** `SearchEngine.search(query, top_k)`. */
  function Search(encode: Encoder, store: VS.Store, query: string, topK: int): (r: Result<seq<VS.SearchResult>>)
    ensures r.Failure? ==> r.error == RuntimeError
    ensures r.Success? <==>
              && !AllSpace(query)
              && |encode(query)| == store.dimension
              && |encode(query)| == store.index.d
              && topK >= 1
    ensures r.Success? ==> r == VS.Search(store, encode(query), topK)
  {
    match EmbedText(encode, query)
    case Failure(_) => Failure(RuntimeError)
    case Success(embedding) =>
      match VS.Search(store, embedding, topK)
      case Failure(_) => Failure(RuntimeError)
      case Success(results) => Success(results)
  }

  /** A query that is empty or only whitespace is refused by the embedder,
      which the engine reports as a RuntimeError rather than a ValueError. */
  lemma BlankQueryFails(encode: Encoder, store: VS.Store, query: string, topK: int)
    requires AllSpace(query)
    ensures Search(encode, store, query, topK) == Failure(RuntimeError)
  {
  }

  /** An encoder whose vectors do not have the store's dimension makes
      every search fail. */
  lemma MismatchedEncoderAlwaysFails(encode: Encoder, n: nat, store: VS.Store, query: string, topK: int)
    requires FixedLength(encode, n) && n != store.dimension
    ensures Search(encode, store, query, topK) == Failure(RuntimeError)
  {
    assert |encode(query)| == n;
  }

  /** A search with the default count returns at most five results, each
      naming an id the store knows together with its metadata. */
  lemma DefaultSearchResults(encode: Encoder, store: VS.Store, query: string)
    ensures Search(encode, store, query, DefaultTopK).Success? ==>
              var rs := Search(encode, store, query, DefaultTopK).value;
              && |rs| <= 5
              && forall i | 0 <= i < |rs| ::
                   rs[i].uniqueId in store.idMap && rs[i].metadata == VS.MetadataDict(store.idMap[rs[i].uniqueId])
  {
  }
}

=== FILE: text_file_extractor.dfy ===
/** The text-file extractor: the size limit, the metadata derived from the
    path and the file's status, and the shape of the result dictionary. The
    filesystem is a parameter: a file is whether it exists, what `stat`
    reports, and what reading it as UTF-8 gives. */
module TextFileExtractor {
  import opened Wrappers
  import opened PyStr
  import opened FileMetadataModel

  /** What `stat` reports: the size, and the change and modification times
      already rendered in ISO format. */
  datatype Stat = Stat(sizeBytes: nat, ctime: string, mtime: string)

  datatype TextFile = TextFile(present: bool, stat: Result<Stat>, content: Result<string>)

  /** The limit `extract_content` applies unless told otherwise: 50 MB. */
  const DefaultMaxSizeMb: Option<real> := Some(50.0)

  /** The limit `extract_text_data` passes on unless told otherwise: none. */
  const TextDataMaxSizeMb: Option<real> := None

  /** `max_size_mb and size / (1024 * 1024) > max_size_mb`: a limit of None or
      0 is no limit; otherwise the size in megabytes (bytes over 1048576)
      must not exceed it. */
  predicate TooLarge(sizeBytes: nat, maxSizeMb: Option<real>) {
    maxSizeMb.Some? && maxSizeMb.value != 0.0 && (sizeBytes as real) / 1048576.0 > maxSizeMb.value
  }

  /** `str.lstrip('.')`. */
  function LStripDots(s: string): (r: string)
    ensures EndsWith(s, r)
    ensures r == [] || r[0] != '.'
    ensures forall k | 0 <= k < |s| - |r| :: s[k] == '.'
  {
    if |s| > 0 && s[0] == '.' then LStripDots(s[1..]) else s
  }

  /** The file type: the path's suffix without its dot ("txt", "md", or empty
      when the final component has no suffix). */
  function FileType(path: string): (t: string)
    ensures PathSuffix(path) == [] ==> t == []
    ensures PathSuffix(path) != [] ==> PathSuffix(path) == "." + t
  {
    var suffix := PathSuffix(path);
    if suffix == [] then []
    else
      LStripOneDot(suffix);
      LStripDots(suffix)
  }

  lemma LStripOneDot(s: string)
    requires |s| >= 2 && s[0] == '.' && s[1] != '.'
    ensures LStripDots(s) == s[1..] && s == "." + s[1..]
  {
    assert LStripDots(s[1..]) == s[1..];
  }

  /** `_extract_metadata`: the path, its final component, its file type, the
      size and the two timestamps; no page count. */
  function ExtractMetadata(path: string, st: Stat): (m: FileMetadata)
    ensures m.filePath == Str(path) && m.filename == Str(PathName(path))
    ensures m.fileType == Str(FileType(path)) && m.sizeBytes == Int(st.sizeBytes)
    ensures m.createdAt == Str(st.ctime) && m.lastModified == Str(st.mtime)
    ensures m.pageCount == NoneValue
  {
    FileMetadata(Str(path), Str(PathName(path)), Str(FileType(path)), Int(st.sizeBytes),
                 Str(st.ctime), Str(st.mtime), NoneValue)
  }

  /** The keys of the result dictionary. */
  const ResultKeys: set<string> := {"metadata", "extracted_text"}

  /** `TextContent.to_dict`: the metadata as a dictionary of all its fields
      and the extracted text. */
  function ContentDict(m: FileMetadata, text: string): (d: map<string, Value>)
    ensures d.Keys == ResultKeys
    ensures d["metadata"].Dict? && d["metadata"].entries.Keys == FieldNames
    ensures d["extracted_text"] == Str(text)
  {
    map["metadata" := Dict(AsDict(m)), "extracted_text" := Str(text)]
  }

  /** `extract_content`: FileNotFoundError for a missing file; the OSError of
      a failed size query, which is not converted; ValueError for a file over
      the limit; RuntimeError when reading fails; otherwise the metadata and
      the content stripped of surrounding whitespace. */
  function ExtractContent(file: TextFile, path: string, maxSizeMb: Option<real>): (r: Result<map<string, Value>>)
    ensures !file.present ==> r == Failure(FileNotFoundError)
    ensures file.present && file.stat.Failure? ==> r == Failure(OSError)
    ensures r == Failure(ValueError) <==>
              file.present && file.stat.Success? && TooLarge(file.stat.value.sizeBytes, maxSizeMb)
    ensures r.Failure? ==> r.error in {FileNotFoundError, OSError, ValueError, RuntimeError}
    ensures r.Success? <==>
              file.present && file.stat.Success? && !TooLarge(file.stat.value.sizeBytes, maxSizeMb)
              && file.content.Success?
    ensures r.Success? ==> r.value.Keys == ResultKeys
    ensures (file.present && file.stat.Success? && !TooLarge(file.stat.value.sizeBytes, maxSizeMb)
             && file.content.Failure?) ==> r == Failure(RuntimeError)
  {
    if !file.present then Failure(FileNotFoundError)
    else if file.stat.Failure? then Failure(OSError)
    else if TooLarge(file.stat.value.sizeBytes, maxSizeMb) then Failure(ValueError)
    else if file.content.Failure? then Failure(RuntimeError)
    else
      var meta := ExtractMetadata(path, file.stat.value);
      Success(ContentDict(meta, Strip(file.content.value)))
  }

  /** `extract_text_data(path, max_size_mb)`: a fresh extractor's
      `extract_content` with the limit passed on, which is none by default. */
  function ExtractTextData(file: TextFile, path: string, maxSizeMb: Option<real> := TextDataMaxSizeMb): (r: Result<map<string, Value>>)
    ensures maxSizeMb == TextDataMaxSizeMb ==> (r.Failure? ==> r.error != ValueError)
    ensures maxSizeMb == TextDataMaxSizeMb ==>
              (r.Success? <==> file.present && file.stat.Success? && file.content.Success?)
    ensures !file.present ==> r == Failure(FileNotFoundError)
    ensures r.Success? <==>
              file.present && file.stat.Success? && !TooLarge(file.stat.value.sizeBytes, maxSizeMb)
              && file.content.Success?
    ensures r.Success? ==> r.value.Keys == ResultKeys
    ensures r.Success? ==> r.value["extracted_text"] == Str(Strip(file.content.value))
  {
    ExtractContent(file, path, maxSizeMb)
  }

  /** Under the default 50 MB limit a file is rejected exactly when it has
      more than 52428800 bytes; a file of exactly 50 MB is accepted. */
  lemma DefaultLimit(sizeBytes: nat)
    ensures TooLarge(sizeBytes, DefaultMaxSizeMb) <==> sizeBytes > 52428800
  {
  }

  /** A limit of 0 or None disables the check. */
  lemma FalsyLimitDisables(sizeBytes: nat)
    ensures !TooLarge(sizeBytes, None) && !TooLarge(sizeBytes, Some(0.0))
  {
  }

  /** What a successful extraction holds: the metadata dictionary has every
      field and reads back through `from_dict` as the file's metadata, with
      the file type, the base name and no page count. */
  lemma ExtractedMetadata(file: TextFile, path: string, maxSizeMb: Option<real>, now: string)
    requires ExtractContent(file, path, maxSizeMb).Success?
    ensures ExtractContent(file, path, maxSizeMb).value["metadata"].Dict?
    ensures FromDict(ExtractContent(file, path, maxSizeMb).value["metadata"].entries, now) ==
              Success(ExtractMetadata(path, file.stat.value))
  {
    var m := ExtractMetadata(path, file.stat.value);
    assert ExtractContent(file, path, maxSizeMb).value["metadata"] == Dict(AsDict(m));
    FromDictAsDict(m, now);
  }

  /** The extracted text is the content stripped of surrounding whitespace,
      so stripping it again changes nothing. */
  lemma ExtractedText(file: TextFile, path: string, maxSizeMb: Option<real>)
    requires ExtractContent(file, path, maxSizeMb).Success?
    ensures ExtractContent(file, path, maxSizeMb).value["extracted_text"] == Str(Strip(file.content.value))
    ensures Strip(Strip(file.content.value)) == Strip(file.content.value)
  {
    StripIdempotent(file.content.value);
  }

  /** The helper without a limit and the extractor with its own 50 MB default
      differ only on files over 50 MB: below the limit they give the same
      result, above it the extractor refuses with ValueError while the helper
      reads the file as it would any other. */
  lemma TextDataAgreesWithinDefault(file: TextFile, path: string)
    requires file.present && file.stat.Success?
    ensures !TooLarge(file.stat.value.sizeBytes, DefaultMaxSizeMb) ==>
              ExtractTextData(file, path) == ExtractContent(file, path, DefaultMaxSizeMb)
    ensures TooLarge(file.stat.value.sizeBytes, DefaultMaxSizeMb) ==>
              && ExtractContent(file, path, DefaultMaxSizeMb) == Failure(ValueError)
              && (ExtractTextData(file, path).Success? <==> file.content.Success?)
  {
    assert !TooLarge(file.stat.value.sizeBytes, TextDataMaxSizeMb);
  }

  /** The final component of `dir + "/" + name` is `name`. */
  lemma PathNameOfJoin(dir: string, name: string)
    requires forall k | 0 <= k < |name| :: name[k] != '/'
    ensures PathName(dir + "/" + name) == name
  {
    var p := dir + "/" + name;
    assert p == (dir + "/") + name;
    RFindAppend(dir + "/", name, '/');
    assert RFind(dir + "/", '/') == |dir|;
  }

  /** A file name "stem.txt" with a non-empty stem yields the file type
      "txt". */
  lemma TxtFileType(dir: string, stem: string)
    requires |stem| > 0 && forall k | 0 <= k < |stem| :: stem[k] != '.' && stem[k] != '/'
    ensures FileType(dir + "/" + stem + ".txt") == "txt"
  {
    var name := stem + ".txt";
    assert dir + "/" + stem + ".txt" == dir + "/" + name;
    PathNameOfJoin(dir, name);
    LastDotOfExtension(stem, ".txt");
    assert NameSuffix(name) == ".txt";
  }

  /** A file whose whole name is ".txt" has no suffix, so no file type. */
  lemma HiddenFileType(dir: string)
    ensures FileType(dir + "/.txt") == []
  {
    assert dir + "/.txt" == dir + "/" + ".txt";
    PathNameOfJoin(dir, ".txt");
    assert RFind(".txt", '.') == 0 by {
      RFindAppend(".", "txt", '.');
      assert "." + "txt" == ".txt";
    }
  }
}

=== FILE: vector_store.dfy ===
/** The id-keyed vector store: a FAISS `IndexIDMap` of (id, vector) entries
    beside a dictionary from id to file metadata, and the two files they are
    kept in. The index file is written once, when a fresh store is created;
    the id-map file is rewritten after every add and remove. */
module VectorStore {
  import opened Wrappers
  import opened Faiss

  /** What the store remembers about the file behind one vector. */
  datatype VectorMetadata = VectorMetadata(
    filePath: string,
    filename: string,
    createdAt: string,
    lastModified: string)

  /** One search answer row: the metadata as a dictionary, the distance and
      the id. */
  datatype SearchResult = SearchResult(metadata: map<string, string>, distance: int, uniqueId: int)

  /** A file on disk that either reads back as a value or fails to load. */
  datatype Stored<T> = Intact(value: T) | Damaged

  /** The index file and the id-map file; None when the file does not exist. */
  datatype Disk = Disk(
    indexFile: Option<Stored<FlatIndex>>,
    idMapFile: Option<Stored<map<int, VectorMetadata>>>)

  datatype Store = Store(
    dimension: int,
    index: FlatIndex,
    idMap: map<int, VectorMetadata>,
    disk: Disk)

  /** The store after a call made for its effect, and how the call ended. A
      call that raises may still have changed the store in memory. */
  datatype Step = Step(store: Store, outcome: Outcome)

  const Int64Min: int := -0x8000_0000_0000_0000
  const Int64Max: int := 0x7fff_ffff_ffff_ffff

  /** An id that fits the int64 array FAISS takes ids in. */
  predicate InInt64(id: int) {
    Int64Min <= id <= Int64Max
  }

  /** The ids in the index are exactly the ids in the id map. */
  predicate Consistent(s: Store) {
    Ids(s.index) == s.idMap.Keys
  }

  /** The in-memory parts of two stores agree (the files may differ). */
  predicate SameContents(s: Store, t: Store) {
    s.dimension == t.dimension && s.index == t.index && s.idMap == t.idMap
  }

  /** The empty index and id map a fresh store starts from. */
  function EmptyIndex(dimension: int): FlatIndex {
    FlatIndex(dimension, [])
  }

  /** `save_id_map`: pickle the id map to its file. `saveOk` says whether the
      write succeeds; when it does not, the call raises RuntimeError and the
      file is left as it was. */
  function SaveIdMap(s: Store, saveOk: bool): (r: Step)
    ensures SameContents(r.store, s)
    ensures r.store.disk.indexFile == s.disk.indexFile
    ensures saveOk <==> r.outcome == Returned
    ensures saveOk ==> r.store.disk.idMapFile == Some(Intact(s.idMap))
    ensures !saveOk ==> r == Step(s, Raised(RuntimeError))
  {
    if saveOk then Step(s.(disk := s.disk.(idMapFile := Some(Intact(s.idMap)))), Returned)
    else Step(s, Raised(RuntimeError))
  }

  /** `VectorStore(dimension)` with `_initialize_store`: a ValueError for a
      dimension below 1; a load when both files exist (RuntimeError when
      either does not read back); otherwise a fresh empty store whose two
      files are written out, or a RuntimeError when `writeOk` says writing
      fails. */
  function New(dimension: int, disk: Disk, writeOk: bool): (r: Result<Store>)
    ensures dimension < 1 ==> r == Failure(ValueError)
    ensures r.Failure? ==> r.error in {ValueError, RuntimeError}
    ensures r.Success? ==> r.value.dimension == dimension >= 1
    ensures dimension >= 1 && disk.indexFile.Some? && disk.idMapFile.Some? ==>
              match (disk.indexFile.value, disk.idMapFile.value)
              case (Intact(ix), Intact(m)) => r == Success(Store(dimension, ix, m, disk))
              case _ => r == Failure(RuntimeError)
    ensures dimension >= 1 && (disk.indexFile.None? || disk.idMapFile.None?) ==>
              if writeOk then
                && r.Success?
                && r.value.index == EmptyIndex(dimension) && r.value.idMap == map[]
                && r.value.disk == Disk(Some(Intact(EmptyIndex(dimension))), Some(Intact(map[])))
              else r == Failure(RuntimeError)
  {
    if dimension < 1 then Failure(ValueError)
    else if disk.indexFile.Some? && disk.idMapFile.Some? then
      match (disk.indexFile.value, disk.idMapFile.value)
      case (Intact(ix), Intact(m)) => Success(Store(dimension, ix, m, disk))
      case _ => Failure(RuntimeError)
    else if !writeOk then Failure(RuntimeError)
    else
      var empty := EmptyIndex(dimension);
      var written := Disk(Some(Intact(empty)), disk.idMapFile);
      var saved := SaveIdMap(Store(dimension, empty, map[], written), true);
      Success(saved.store)
  }

  /** The two clock readings `add_embedding` takes, in ISO format: the one
      passed as `last_modified`, and the one the `created_at` field default
      takes while the entry is constructed a moment later. */
  datatype Clock = Clock(lastModified: string, createdAt: string)

  /** The id-map entry `add_embedding` writes: file path and file name from
      the metadata dictionary (empty when absent), and the two readings. */
  function NewMetadata(meta: map<string, string>, now: Clock): (v: VectorMetadata)
    ensures v.filePath == Get(meta, "file_path", "")
    ensures v.filename == Get(meta, "filename", "")
    ensures v.createdAt == now.createdAt && v.lastModified == now.lastModified
  {
    VectorMetadata(Get(meta, "file_path", ""), Get(meta, "filename", ""), now.createdAt, now.lastModified)
  }

  /** The checks `add_embedding` and FAISS's `add_with_ids` make before
      anything changes: the vector has the store's dimension and the index's,
      and the id fits in an int64. */
  predicate AddAccepted(s: Store, vec: Vector, id: int) {
    |vec| == s.dimension && InInt64(id) && |vec| == s.index.d
  }

  /** `add_embedding`: the length check comes before both insertions, so a
      rejected vector leaves the store untouched. Otherwise the entry is
      appended to the index whether or not its id is already there, the id
      map entry is (over)written, and the id map is saved; a failed save
      raises but keeps the in-memory change. The index file is not
      rewritten. */
  function AddEmbedding(s: Store, vec: Vector, meta: map<string, string>, id: int, now: Clock,
                        saveOk: bool): (r: Step)
    ensures |vec| != s.dimension ==> r == Step(s, Raised(RuntimeError))
    ensures r.outcome == Returned <==> AddAccepted(s, vec, id) && saveOk
    ensures r.outcome.Raised? ==> r.outcome.error == RuntimeError
    ensures r.store.dimension == s.dimension && r.store.index.d == s.index.d
    ensures r.store.disk.indexFile == s.disk.indexFile
    ensures AddAccepted(s, vec, id) ==>
              && r.store.index.entries == s.index.entries + [Entry(id, vec)]
              && r.store.idMap == s.idMap[id := NewMetadata(meta, now)]
    ensures !AddAccepted(s, vec, id) ==> r == Step(s, Raised(RuntimeError))
  {
    if !AddAccepted(s, vec, id) then
      Step(s, Raised(RuntimeError))
    else
      var added := s.(index := Add(s.index, id, vec),
                      idMap := s.idMap[id := NewMetadata(meta, now)]);
      SaveIdMap(added, saveOk)
  }

  /** `remove_embedding`: every index entry with the id goes, the id-map entry
      goes if present, and the id map is saved. An absent id is not an
      error. */
  function RemoveEmbedding(s: Store, id: int, saveOk: bool): (r: Step)
    ensures r.outcome == Returned <==> InInt64(id) && saveOk
    ensures r.outcome.Raised? ==> r.outcome.error == RuntimeError
    ensures r.store.dimension == s.dimension && r.store.index.d == s.index.d
    ensures r.store.disk.indexFile == s.disk.indexFile
    ensures InInt64(id) ==> id !in Ids(r.store.index) && id !in r.store.idMap
    ensures InInt64(id) ==> r.store.idMap == s.idMap - {id}
    ensures InInt64(id) ==> forall e :: e in r.store.index.entries <==> e in s.index.entries && e.id != id
    ensures InInt64(id) ==> r.store.index.entries == Without(s.index.entries, id)
    ensures !InInt64(id) ==> r == Step(s, Raised(RuntimeError))
  {
    if !InInt64(id) then Step(s, Raised(RuntimeError))
    else
      var removed := s.(index := RemoveIds(s.index, id), idMap := s.idMap - {id});
      SaveIdMap(removed, saveOk)
  }

  /** The metadata dictionary a search result carries: each key holds the
      id-map entry's field of the same name. */
  function MetadataDict(m: VectorMetadata): (d: map<string, string>)
    ensures d.Keys == {"file_path", "filename", "created_at", "last_modified"}
    ensures d["file_path"] == m.filePath && d["filename"] == m.filename
    ensures d["created_at"] == m.createdAt && d["last_modified"] == m.lastModified
  {
    map["file_path" := m.filePath, "filename" := m.filename,
        "created_at" := m.createdAt, "last_modified" := m.lastModified]
  }

  /** The answer rows that name an id present in the id map, as search
      results, in the order FAISS returned them. */
  function Collect(hits: seq<Hit>, idMap: map<int, VectorMetadata>): (rs: seq<SearchResult>)
    ensures |rs| <= |hits|
    ensures forall i | 0 <= i < |rs| ::
              rs[i].uniqueId in idMap && rs[i].metadata == MetadataDict(idMap[rs[i].uniqueId])
    ensures forall i | 0 <= i < |rs| :: Hit(rs[i].distance, rs[i].uniqueId) in hits
  {
    if |hits| == 0 then []
    else
      var rest := Collect(hits[1..], idMap);
      assert forall h | h in hits[1..] :: h in hits;
      var h := hits[0];
      if h.id != NoLabel && h.id in idMap then
        [SearchResult(MetadataDict(idMap[h.id]), h.distance, h.id)] + rest
      else rest
  }

  /** `search`: a RuntimeError for a query whose length is not the store's
      dimension, or (from FAISS's own checks) not the index's, or for
      `top_k` below 1; otherwise the k-nearest rows with label -1 and
      unmapped ids dropped. */
  function Search(s: Store, q: Vector, topK: int): (r: Result<seq<SearchResult>>)
    ensures r.Failure? <==> |q| != s.dimension || |q| != s.index.d || topK < 1
    ensures r.Failure? ==> r.error == RuntimeError
    ensures r.Success? ==> |r.value| <= topK
    ensures r.Success? ==> forall i | 0 <= i < |r.value| ::
              && r.value[i].uniqueId in s.idMap
              && r.value[i].metadata == MetadataDict(s.idMap[r.value[i].uniqueId])
    ensures r.Success? ==> exists hits :: IsKnnAnswer(s.index, q, topK, hits) && r.value == Collect(hits, s.idMap)
  {
    if |q| != s.dimension || |q| != s.index.d || topK < 1 then Failure(RuntimeError)
    else
      KnnIsAnswer(s.index, q, topK);
      Success(Collect(Knn(s.index, q, topK), s.idMap))
  }

  /** A row the result filter keeps: a real label the id map knows. */
  predicate Kept(h: Hit, idMap: map<int, VectorMetadata>) {
    h.id != NoLabel && h.id in idMap
  }

  /** The search result a kept row becomes. */
  function ResultOf(h: Hit, idMap: map<int, VectorMetadata>): SearchResult
    requires Kept(h, idMap)
  {
    SearchResult(MetadataDict(idMap[h.id]), h.distance, h.id)
  }

  /** Rows that are all kept become one result each, in order. */
  lemma {:induction false} CollectAllKept(hits: seq<Hit>, idMap: map<int, VectorMetadata>)
    requires forall i | 0 <= i < |hits| :: Kept(hits[i], idMap)
    ensures |Collect(hits, idMap)| == |hits|
    ensures forall i | 0 <= i < |hits| :: Collect(hits, idMap)[i] == ResultOf(hits[i], idMap)
  {
    if |hits| > 0 {
      CollectAllKept(hits[1..], idMap);
      var rest := Collect(hits[1..], idMap);
      assert Collect(hits, idMap) == [ResultOf(hits[0], idMap)] + rest;
      forall i | 1 <= i < |hits| ensures Collect(hits, idMap)[i] == ResultOf(hits[i], idMap) {
        assert hits[1..][i - 1] == hits[i];
      }
    }
  }

  /** Padding rows give no result. */
  lemma {:induction false} CollectNoneKept(hits: seq<Hit>, idMap: map<int, VectorMetadata>)
    requires forall i | 0 <= i < |hits| :: hits[i].id == NoLabel
    ensures Collect(hits, idMap) == []
  {
    if |hits| > 0 {
      CollectNoneKept(hits[1..], idMap);
    }
  }

  /** The number of results a search can give: top_k, or fewer when the
      index holds fewer entries. */
  function ResultCount(s: Store, topK: nat): nat {
    if topK <= |s.index.entries| then topK else |s.index.entries|
  }

  /** On a consistent store without label -1 among its ids, the results are
      the real rows of the k-nearest answer, one each, in order. */
  lemma SearchRows(s: Store, q: Vector, topK: nat)
    requires Consistent(s) && NoLabel !in Ids(s.index)
    requires |q| == s.dimension == s.index.d && topK >= 1
    ensures var hits := Knn(s.index, q, topK);
            var rs := Search(s, q, topK).value;
            && |rs| == ResultCount(s, topK)
            && forall i | 0 <= i < |rs| :: Kept(hits[i], s.idMap) && rs[i] == ResultOf(hits[i], s.idMap)
  {
    var hits := Knn(s.index, q, topK);
    var m := ResultCount(s, topK);
    forall i | 0 <= i < m ensures Kept(hits[i], s.idMap) {
      assert hits[i].id in Ids(s.index);
    }
    CollectSplit(hits, m, s.idMap);
    assert Search(s, q, topK) == Success(Collect(hits, s.idMap));
  }

  /** Rows that are kept up to position `m` and padding after it become
      exactly `m` results, in order. */
  lemma CollectSplit(hits: seq<Hit>, m: nat, idMap: map<int, VectorMetadata>)
    requires m <= |hits|
    requires forall i | 0 <= i < m :: Kept(hits[i], idMap)
    requires forall i | m <= i < |hits| :: hits[i].id == NoLabel
    ensures |Collect(hits, idMap)| == m
    ensures forall i | 0 <= i < m :: Collect(hits, idMap)[i] == ResultOf(hits[i], idMap)
  {
    var a, b := hits[..m], hits[m..];
    assert hits == a + b;
    assert forall i | 0 <= i < m :: a[i] == hits[i];
    CollectAllKept(a, idMap);
    assert forall i | 0 <= i < |b| :: b[i] == hits[m + i];
    CollectNoneKept(b, idMap);
    CollectAppend(a, b, idMap);
    assert Collect(hits, idMap) == Collect(a, idMap);
  }

  /** The answer row a search result carries. */
  function HitOf(r: SearchResult): Hit {
    Hit(r.distance, r.uniqueId)
  }

  function HitsOf(rs: seq<SearchResult>): (hs: seq<Hit>)
    ensures |hs| == |rs|
    ensures forall i | 0 <= i < |rs| :: hs[i] == HitOf(rs[i])
  {
    seq(|rs|, i requires 0 <= i < |rs| => HitOf(rs[i]))
  }

  /** `rs` answers "the top_k most similar embeddings" to `q`: as many
      results as top_k allows, nearest first, each naming an entry at its
      distance, and no entry strictly nearer than the last result missing
      (when the index holds no more than top_k entries, no entry missing). */
  ghost predicate TopK(ix: FlatIndex, q: Vector, topK: nat, rs: seq<SearchResult>) {
    && |rs| == (if topK <= |ix.entries| then topK else |ix.entries|)
    && (forall i, j | 0 <= i < j < |rs| :: rs[i].distance <= rs[j].distance)
    && (forall i | 0 <= i < |rs| :: HitOf(rs[i]) in EntryRows(ix, q))
    && (forall p | 0 <= p < |ix.entries| && (1 <= topK < |ix.entries| ==> SquaredL2(ix.entries[p].vec, q) < rs[topK - 1].distance) ::
          HitAt(ix, q, p) in HitsOf(rs))
  }

  /** On a consistent store without label -1 among its ids, `search`
      returns the top_k most similar embeddings. */
  lemma SearchIsTopK(s: Store, q: Vector, topK: nat)
    requires Consistent(s) && NoLabel !in Ids(s.index)
    requires |q| == s.dimension == s.index.d && topK >= 1
    ensures Search(s, q, topK).Success?
    ensures TopK(s.index, q, topK, Search(s, q, topK).value)
  {
    var hits := Knn(s.index, q, topK);
    var rs := Search(s, q, topK).value;
    KnnIsAnswer(s.index, q, topK);
    SearchRows(s, q, topK);
    forall i | 0 <= i < |rs| ensures rs[i].distance == hits[i].distance && rs[i].uniqueId == hits[i].id {
      assert rs[i] == ResultOf(hits[i], s.idMap);
    }
    RowsOfAnswer(s.index, q, topK, hits, rs);
  }

  /** Results that copy, one for one, the real rows of a k-nearest answer
      are the top_k most similar embeddings. */
  lemma RowsOfAnswer(ix: FlatIndex, q: Vector, topK: nat, hits: seq<Hit>, rs: seq<SearchResult>)
    requires IsKnnAnswer(ix, q, topK, hits) && topK >= 1
    requires |rs| == if topK <= |ix.entries| then topK else |ix.entries|
    requires forall i | 0 <= i < |rs| :: rs[i].distance == hits[i].distance && rs[i].uniqueId == hits[i].id
    ensures TopK(ix, q, topK, rs)
  {
    RowsAscending(ix, q, topK, hits, rs);
    RowsNameEntries(ix, q, topK, hits, rs);
    RowsMissNoNearer(ix, q, topK, hits, rs);
  }

  lemma RowsAscending(ix: FlatIndex, q: Vector, topK: nat, hits: seq<Hit>, rs: seq<SearchResult>)
    requires IsKnnAnswer(ix, q, topK, hits) && topK >= 1
    requires |rs| == if topK <= |ix.entries| then topK else |ix.entries|
    requires forall i | 0 <= i < |rs| :: rs[i].distance == hits[i].distance && rs[i].uniqueId == hits[i].id
    ensures forall i, j | 0 <= i < j < |rs| :: rs[i].distance <= rs[j].distance
  {
    forall i, j | 0 <= i < j < |rs| ensures rs[i].distance <= rs[j].distance {
      AnswerAscending(ix, q, topK, hits, i, j);
    }
  }

  lemma RowsNameEntries(ix: FlatIndex, q: Vector, topK: nat, hits: seq<Hit>, rs: seq<SearchResult>)
    requires IsKnnAnswer(ix, q, topK, hits) && topK >= 1
    requires |rs| == if topK <= |ix.entries| then topK else |ix.entries|
    requires forall i | 0 <= i < |rs| :: rs[i].distance == hits[i].distance && rs[i].uniqueId == hits[i].id
    ensures forall i | 0 <= i < |rs| :: HitOf(rs[i]) in EntryRows(ix, q)
  {
    forall i | 0 <= i < |rs| ensures HitOf(rs[i]) in EntryRows(ix, q) {
      AnswerRowIsEntry(ix, q, topK, hits, i);
      var p :| 0 <= p < |ix.entries| && hits[i] == HitAt(ix, q, p);
      assert EntryRows(ix, q)[p] == HitOf(rs[i]);
    }
  }

  lemma RowsMissNoNearer(ix: FlatIndex, q: Vector, topK: nat, hits: seq<Hit>, rs: seq<SearchResult>)
    requires IsKnnAnswer(ix, q, topK, hits) && topK >= 1
    requires |rs| == if topK <= |ix.entries| then topK else |ix.entries|
    requires forall i | 0 <= i < |rs| :: rs[i].distance == hits[i].distance && rs[i].uniqueId == hits[i].id
    ensures forall p | 0 <= p < |ix.entries| && (1 <= topK < |ix.entries| ==> SquaredL2(ix.entries[p].vec, q) < rs[topK - 1].distance) ::
              HitAt(ix, q, p) in HitsOf(rs)
  {
    forall p | 0 <= p < |ix.entries| && (1 <= topK < |ix.entries| ==> SquaredL2(ix.entries[p].vec, q) < rs[topK - 1].distance)
      ensures HitAt(ix, q, p) in HitsOf(rs)
    {
      AnswerIncludesNearer(ix, q, topK, hits, p);
      var j :| 0 <= j < topK && j < |ix.entries| && hits[j] == HitAt(ix, q, p);
      assert HitsOf(rs)[j] == HitAt(ix, q, p);
    }
  }

  /** The invariant the store is meant to keep: every id in the index has
      exactly one entry there and one entry in the id map, and vice versa. */
  predicate WellFormed(s: Store) {
    Consistent(s) && UniqueIds(s.index)
  }

  /** When the invariant holds, the index holds one entry per id-map entry. */
  lemma WellFormedCount(s: Store)
    requires WellFormed(s)
    ensures |s.index.entries| == |s.idMap|
  {
    UniqueIdsCount(s.index.entries);
  }

  /** Add keeps the ids of the index equal to the keys of the id map, whether
      it succeeds, is rejected, or fails while saving. */
  lemma AddPreservesConsistency(s: Store, vec: Vector, meta: map<string, string>, id: int,
                                now: Clock, saveOk: bool)
    ensures Consistent(s) ==> Consistent(AddEmbedding(s, vec, meta, id, now, saveOk).store)
  {
  }

  /** Remove keeps the ids of the index equal to the keys of the id map. */
  lemma RemovePreservesConsistency(s: Store, id: int, saveOk: bool)
    ensures Consistent(s) ==> Consistent(RemoveEmbedding(s, id, saveOk).store)
  {
  }

  /** Adding an id the store does not hold keeps the full invariant, and the
      entry count grows by one. */
  lemma AddFreshPreservesWellFormed(s: Store, vec: Vector, meta: map<string, string>, id: int,
                                    now: Clock, saveOk: bool)
    requires WellFormed(s)
    requires id !in s.idMap
    ensures WellFormed(AddEmbedding(s, vec, meta, id, now, saveOk).store)
  {
    var t := AddEmbedding(s, vec, meta, id, now, saveOk).store;
    if !SameContents(t, s) {
      var es := s.index.entries;
      assert id !in IdsOf(es);
      forall i, j | 0 <= i < j < |t.index.entries| ensures t.index.entries[i].id != t.index.entries[j].id {
        if j == |es| {
          assert t.index.entries[i] == es[i] && es[i] in es;
        } else {
          assert t.index.entries[i] == es[i] && t.index.entries[j] == es[j];
        }
      }
    }
  }

  /** Remove keeps the full invariant. */
  lemma RemovePreservesWellFormed(s: Store, id: int, saveOk: bool)
    requires WellFormed(s)
    ensures WellFormed(RemoveEmbedding(s, id, saveOk).store)
  {
    if InInt64(id) {
      WithoutUnique(s.index.entries, id);
    }
  }

  /** Re-adding an id that is already stored: the id map keeps its size and
      its entry for the id is overwritten (last writer wins). */
  lemma AddExistingIdOverwrites(s: Store, vec: Vector, meta: map<string, string>, id: int,
                                now: Clock, saveOk: bool)
    requires id in s.idMap
    requires AddAccepted(s, vec, id)
    ensures |AddEmbedding(s, vec, meta, id, now, saveOk).store.idMap| == |s.idMap|
    ensures AddEmbedding(s, vec, meta, id, now, saveOk).store.idMap[id] == NewMetadata(meta, now)
  {
    var t := AddEmbedding(s, vec, meta, id, now, saveOk).store;
    assert t.idMap.Keys == s.idMap.Keys;
  }

  /** Re-adding an id that is already stored appends a second index entry
      for it, so the one-entry-per-id half of the invariant breaks while the
      id sets still agree. */
  lemma AddExistingIdDuplicates(s: Store, vec: Vector, meta: map<string, string>, id: int,
                                now: Clock, saveOk: bool)
    requires WellFormed(s)
    requires id in s.idMap
    requires AddAccepted(s, vec, id)
    ensures |AddEmbedding(s, vec, meta, id, now, saveOk).store.index.entries| == |s.index.entries| + 1
    ensures CountId(AddEmbedding(s, vec, meta, id, now, saveOk).store.index.entries, id) == 2
    ensures !UniqueIds(AddEmbedding(s, vec, meta, id, now, saveOk).store.index)
  {
    var es := s.index.entries;
    var es' := AddEmbedding(s, vec, meta, id, now, saveOk).store.index.entries;
    assert es' == es + [Entry(id, vec)];
    assert CountId(es, id) == 1 by {
      assert id in IdsOf(es);
      CountAtMostOne(es, id);
    }
    CountIdAppend(es, [Entry(id, vec)], id);
    assert CountId([Entry(id, vec)], id) == 1;
    if UniqueIdsOf(es') {
      CountAtMostOne(es', id);
    }
  }

  /** With unique ids an id is carried by at most one entry. */
  lemma {:induction false} CountAtMostOne(es: seq<Entry>, id: int)
    requires UniqueIdsOf(es)
    ensures CountId(es, id) <= 1
  {
    if |es| > 0 {
      var tail := es[1..];
      assert UniqueIdsOf(tail) by {
        forall i, j | 0 <= i < j < |tail| ensures tail[i].id != tail[j].id {
          assert tail[i] == es[i + 1] && tail[j] == es[j + 1];
        }
      }
      CountAtMostOne(tail, id);
      if es[0].id == id {
        assert id !in IdsOf(tail) by {
          forall e | e in tail ensures e.id != id {
            var k :| 0 <= k < |tail| && tail[k] == e;
            assert es[k + 1] == e;
          }
        }
      }
    }
  }

  /** Removing an id the store does not hold changes nothing in memory (the
      id map is still saved). */
  lemma RemoveAbsentIsNoop(s: Store, id: int, saveOk: bool)
    requires id !in Ids(s.index) && id !in s.idMap && InInt64(id)
    ensures SameContents(RemoveEmbedding(s, id, saveOk).store, s)
    ensures RemoveEmbedding(s, id, saveOk).outcome == if saveOk then Returned else Raised(RuntimeError)
  {
    WithoutAbsent(s.index.entries, id);
    assert s.idMap - {id} == s.idMap;
  }

  /** Removing an id that has one entry lowers the entry count by one. */
  lemma RemovePresentCount(s: Store, id: int, saveOk: bool)
    requires WellFormed(s) && id in s.idMap && InInt64(id)
    ensures |RemoveEmbedding(s, id, saveOk).store.index.entries| == |s.index.entries| - 1
    ensures |RemoveEmbedding(s, id, saveOk).store.idMap| == |s.idMap| - 1
  {
    WithoutCount(s.index.entries, id);
    CountAtMostOne(s.index.entries, id);
  }

  /** After a remove, no search answer names the removed id. */
  lemma RemoveThenSearch(s: Store, id: int, saveOk: bool, q: Vector, topK: int)
    requires InInt64(id)
    ensures var r := Search(RemoveEmbedding(s, id, saveOk).store, q, topK);
            r.Success? ==> forall i | 0 <= i < |r.value| :: r.value[i].uniqueId != id
  {
  }

  /** Searching with the vector just added finds that vector first, at
      distance 0, with the metadata just written, provided no other stored
      vector coincides with it and the id is not the label -1. */
  lemma SearchAfterAdd(s: Store, vec: Vector, meta: map<string, string>, id: int, now: Clock,
                       saveOk: bool, topK: int)
    requires |vec| == s.dimension == s.index.d && InInt64(id) && id != NoLabel && topK >= 1
    requires forall e | e in s.index.entries :: SquaredL2(e.vec, vec) > 0
    ensures var r := Search(AddEmbedding(s, vec, meta, id, now, saveOk).store, vec, topK);
            && r.Success? && |r.value| >= 1
            && r.value[0] == SearchResult(MetadataDict(NewMetadata(meta, now)), 0, id)
            && r.value[0].metadata["file_path"] == Get(meta, "file_path", "")
            && r.value[0].metadata["filename"] == Get(meta, "filename", "")
            && r.value[0].metadata["created_at"] == now.createdAt
            && r.value[0].metadata["last_modified"] == now.lastModified
  {
    var t := AddEmbedding(s, vec, meta, id, now, saveOk).store;
    var n := |s.index.entries|;
    assert forall i | 0 <= i < n :: t.index.entries[i] == s.index.entries[i] && s.index.entries[i] in s.index.entries;
    NearestIsOnlyMatch(t.index, vec, id, topK);
    CollectFirst(Knn(t.index, vec, topK), t.idMap);
  }

  /** When only the last entry of the index coincides with the query, it is
      the first row of any k-nearest answer, at distance 0. */
  lemma NearestIsOnlyMatch(ix: FlatIndex, vec: Vector, id: int, k: nat)
    requires |ix.entries| >= 1 && k >= 1
    requires ix.entries[|ix.entries| - 1] == Entry(id, vec)
    requires forall i | 0 <= i < |ix.entries| - 1 :: SquaredL2(ix.entries[i].vec, vec) > 0
    ensures Knn(ix, vec, k)[0] == Hit(0, id)
  {
    var n := |ix.entries| - 1;
    var hits := Knn(ix, vec, k);
    KnnIsAnswer(ix, vec, k);
    NearestFirst(ix, vec, k, hits);
    SquaredL2Self(vec);
    var p :| 0 <= p < |ix.entries| && hits[0] == HitAt(ix, vec, p);
    assert hits[0].distance <= SquaredL2(ix.entries[n].vec, vec);
    assert p == n;
  }

  /** A first answer row with a mapped id becomes the first search result. */
  lemma CollectFirst(hits: seq<Hit>, idMap: map<int, VectorMetadata>)
    requires |hits| >= 1 && hits[0].id != NoLabel && hits[0].id in idMap
    ensures |Collect(hits, idMap)| >= 1
    ensures Collect(hits, idMap)[0] == SearchResult(MetadataDict(idMap[hits[0].id]), hits[0].distance, hits[0].id)
  {
    assert hits == [hits[0]] + hits[1..];
    CollectAppend([hits[0]], hits[1..], idMap);
    CollectOne(hits[0], idMap);
  }

  /** A start-up, an add and a second start-up: because only the id map is
      written after an add, the reloaded store's index lacks the new entry
      while its id map has it. */
  lemma ReloadAfterAdd(dimension: int, vec: Vector, meta: map<string, string>, id: int, now: Clock)
    requires dimension >= 1 && |vec| == dimension && InInt64(id)
    ensures var s := New(dimension, Disk(None, None), true).value;
            var t := AddEmbedding(s, vec, meta, id, now, true).store;
            var reloaded := New(dimension, t.disk, true);
            && reloaded.Success?
            && reloaded.value.index == EmptyIndex(dimension)
            && reloaded.value.idMap == map[id := NewMetadata(meta, now)]
            && !Consistent(reloaded.value)
  {
    var s := New(dimension, Disk(None, None), true).value;
    var t := AddEmbedding(s, vec, meta, id, now, true).store;
    assert t.idMap == map[id := NewMetadata(meta, now)];
    assert id in t.idMap.Keys;
    assert Ids(EmptyIndex(dimension)) == {};
  }

  /** The store after creating a four-dimensional store and adding two
      vectors under ids 1 and 2. */
  function ScenarioStore(now: Clock, meta: map<string, string>): (s: Store)
    ensures s.dimension == 4 && s.index.d == 4
    ensures s.index.entries == [Entry(1, [10, 0, 0, 0]), Entry(2, [0, 10, 0, 0])]
    ensures s.idMap.Keys == {1, 2}
  {
    var s0 := New(4, Disk(None, None), true).value;
    var s1 := AddEmbedding(s0, [10, 0, 0, 0], meta, 1, now, true).store;
    assert s1.index.entries == [Entry(1, [10, 0, 0, 0])] && s1.idMap.Keys == {1};
    AddEmbedding(s1, [0, 10, 0, 0], meta, 2, now, true).store
  }

  /** A store holding two vectors under ids `a` and `b`, both mapped: a query
      strictly nearer the first one finds `a` as its single nearest
      neighbour. */
  lemma NearerOfTwo(s: Store, q: Vector, a: int, u: Vector, b: int, v: Vector)
    requires s.index.entries == [Entry(a, u), Entry(b, v)]
    requires |q| == s.dimension == s.index.d
    requires a != NoLabel && a in s.idMap
    requires SquaredL2(u, q) < SquaredL2(v, q)
    ensures Search(s, q, 1) == Success([SearchResult(MetadataDict(s.idMap[a]), SquaredL2(u, q), a)])
  {
    var ix := s.index;
    var hits := Knn(ix, q, 1);
    KnnIsAnswer(ix, q, 1);
    NearestFirst(ix, q, 1, hits);
    assert hits[0] == Hit(SquaredL2(u, q), a) by {
      var p :| 0 <= p < 2 && hits[0] == HitAt(ix, q, p);
      assert hits[0].distance <= SquaredL2(v, q);
    }
    CollectOne(hits[0], s.idMap);
    assert hits == [hits[0]];
  }

  /** The squared distance of two four-component vectors, spelt out. */
  lemma SquaredL2Four(a0: int, a1: int, a2: int, a3: int, b0: int, b1: int, b2: int, b3: int)
    ensures SquaredL2([a0, a1, a2, a3], [b0, b1, b2, b3]) ==
              Square(a0 - b0) + Square(a1 - b1) + Square(a2 - b2) + Square(a3 - b3)
  {
    assert [a0, a1, a2, a3][1..] == [a1, a2, a3] && [b0, b1, b2, b3][1..] == [b1, b2, b3];
    assert [a1, a2, a3][1..] == [a2, a3] && [b1, b2, b3][1..] == [b2, b3];
    assert [a2, a3][1..] == [a3] && [b2, b3][1..] == [b3];
    assert [a3][1..] == [] && [b3][1..] == [];
    assert SquaredL2([a3], [b3]) == Square(a3 - b3);
    assert SquaredL2([a2, a3], [b2, b3]) == Square(a2 - b2) + Square(a3 - b3);
    assert SquaredL2([a1, a2, a3], [b1, b2, b3]) == Square(a1 - b1) + SquaredL2([a2, a3], [b2, b3]);
  }

  /** In that store the query [9, 1, 0, 0], nearer the first vector, finds
      id 1 as its single nearest neighbour, at squared distance 2. */
  lemma TwoVectorScenario(now: Clock, meta: map<string, string>)
    ensures var r := Search(ScenarioStore(now, meta), [9, 1, 0, 0], 1);
            r.Success? && |r.value| == 1 && r.value[0].uniqueId == 1 && r.value[0].distance == 2
  {
    var s := ScenarioStore(now, meta);
    var q := [9, 1, 0, 0];
    SquaredL2Four(10, 0, 0, 0, 9, 1, 0, 0);
    SquaredL2Four(0, 10, 0, 0, 9, 1, 0, 0);
    NearerOfTwo(s, q, 1, [10, 0, 0, 0], 2, [0, 10, 0, 0]);
  }

  /** Collecting the answer rows of two runs of hits one after the other is
      collecting each run: the filter keeps FAISS's order. */
  lemma {:induction false} CollectAppend(a: seq<Hit>, b: seq<Hit>, idMap: map<int, VectorMetadata>)
    ensures Collect(a + b, idMap) == Collect(a, idMap) + Collect(b, idMap)
  {
    if |a| == 0 {
      assert a + b == b;
    } else {
      assert (a + b)[1..] == a[1..] + b;
      CollectAppend(a[1..], b, idMap);
    }
  }

  /** A single row survives exactly when its label is not -1 and its id is
      in the id map, and then carries that id's metadata. */
  lemma CollectOne(h: Hit, idMap: map<int, VectorMetadata>)
    ensures Collect([h], idMap) ==
              if h.id != NoLabel && h.id in idMap
              then [SearchResult(MetadataDict(idMap[h.id]), h.distance, h.id)]
              else []
  {
    assert [h][1..] == [];
  }
}

=== FILE: wrappers.dfy ===
/** Failure-compatible result types shared by every module, and the Python
    exception classes that the indexing core raises or lets through. */
module Wrappers {

  datatype Option<+T> = None | Some(value: T) {

    /** The value in Some, or `default` when None (Python's `dict.get(k, default)`). */
    function GetOr(default: T): T {
      match this
      case Some(v) => v
      case None => default
    }
  }

  /** The exception classes that cross a function boundary in the modelled code. */
  datatype Error =
    | ValueError
    | RuntimeError
    | FileNotFoundError
    | TypeError
    | OSError
    | UnboundLocalError

  /** A value, or the exception that was raised instead of returning it. */
  datatype Result<+T> = Success(value: T) | Failure(error: Error) {

    function GetOr(default: T): T {
      match this
      case Success(v) => v
      case Failure(_) => default
    }
  }

  /** What a call made for its effect did: returned normally, or raised. */
  datatype Outcome = Returned | Raised(error: Error)

  /** Python's `d.get(key, default)` on a dictionary. */
  function Get<K, V>(d: map<K, V>, key: K, default: V): (v: V)
    ensures key in d ==> v == d[key]
    ensures key !in d ==> v == default
  {
    if key in d then d[key] else default
  }
}
